=== FILE: README.md ===
# Patient Insights Portal — a Dafny model of the dashboard core

This project models the logic behind the Patient Insights Portal, a demo clinical
dashboard. The portal generates mock patients and alerts, filters and
searches the patient list, and manages read/unread alerts. It also derives
risk factors and care recommendations for a selected patient, and runs a
mock doctor login with session restore and a one-time-password screen.
Everything is modelled as pure Dafny functions over immutable datatypes. The
proofs state what the screens promise:

- the filters select exactly the patients the declarative criteria describe;
- marking alerts read changes nothing else;
- the generated data lands inside its stated bands;
- the session never claims to be authenticated without a user.

Module layout (one file per source unit):

| file | module | models |
|---|---|---|
| `wrappers.dfy` | `Wrappers` | `Option` |
| `seqs.dfy` | `Seqs` | order-preserving `filter`, subsequence, distinctness |
| `text.dfy` | `Text` | ASCII `toLowerCase`, `String.includes`, decimal rendering of numbers |
| `mock_data.dfy` | `MockData` | `src/utils/mockData.ts` |
| `patient_search_bar.dfy` | `SearchBar` | `src/components/PatientSearchBar.tsx` |
| `patient_list.dfy` | `PatientList` | `src/components/PatientList.tsx` |
| `alerts_panel.dfy` | `AlertsPanel` | `src/components/AlertsPanel.tsx` |
| `index_page.dfy` | `Dashboard` | `src/pages/Index.tsx` |
| `auth_context.dfy` | `Auth` | `src/context/AuthContext.tsx` and the guard in `src/pages/Login.tsx` |
| `otp_verification.dfy` | `Otp` | `src/pages/OtpVerification.tsx` |

Randomness, the clock and storage are parameters:

- Each `Math.random()` draw is a `Unit` value, a real in `[0, 1)`. `Math.floor(Math.random() * n)` is `MockData.Pick`.
- The comparator `() => 0.5 - Math.random()` used to shuffle conditions is an arbitrary permutation of the vocabulary indices (`MockData.IsShuffle`).
- `new Date()` is a millisecond count `now` carried in each alert's draws. Timestamps are integer milliseconds rather than ISO strings.
- `localStorage` is the `Auth.Stored` value: either absent, or the stored text together with what `JSON.parse` makes of it.
- React state updates are functions from the old state to the new one. A dashboard handler takes the current `alerts` or `selectedPatient` and returns the next value.

Where the code and its comments disagree, the model follows the code:

- Patient ages are `Math.floor(Math.random() * 60) + 20`, so 20 to 79, not 20 to 80 as the comment says.
- `Other` is a declared gender but is never generated.
- `isRead` is `Math.random() > 0.7`. Alerts are therefore read with probability 0.3, not unread as the comment says. The model keeps the strict `> 0.7` threshold.
- `generateMockAlerts` indexes into the alert pool without checking it. An empty pool with a positive `count` yields `undefined.id` and throws, instead of returning no alerts. `MockData.GenerateMockAlerts` therefore requires a non-empty pool whenever `count > 0`.
- The condition filter tests `patientCondition.includes(filterCondition)`, a substring test in one direction only. Filtering on "Diabetes" therefore also matches "Diabetes Type 2", but not the reverse (`PatientList.ConditionMatchIsOneWay`).

## Model

| member | source | states |
|---|---|---|
| MockData.Pick | src/utils/mockData.ts:131 | `Math.floor(u * n)` for a draw `u` in [0, 1) is always a valid index below `n` |
| MockData.PickReaches | src/utils/mockData.ts:131 | every index below `n` is produced by some draw, so no alert type or pool entry is unreachable |
| MockData.VocabularyDistinct | src/utils/mockData.ts:36-47 | the condition vocabulary has ten entries, no two equal |
| MockData.AssignRisk | src/utils/mockData.ts:50-63 | the level is high exactly when the draw is below 0.25, medium on [0.25, 0.6), low otherwise; the score lies in the level's band (80-100, 50-79, 10-49) |
| MockData.EveryBandScoreReachable | src/utils/mockData.ts:50-63 | conversely, every (level, score) pair inside a band is produced by some pair of draws |
| MockData.Shuffled | src/utils/mockData.ts:68 | a shuffle of the vocabulary has the same ten conditions, each once |
| MockData.PickConditions | src/utils/mockData.ts:66-69 | a patient gets one to three conditions, all distinct and all from the vocabulary |
| MockData.PatientIdInjective | src/utils/mockData.ts:80 | distinct loop indices give distinct `P<1000+i>` ids |
| MockData.MakePatient | src/utils/mockData.ts:79-92 | a generated patient is well formed (score in its level's band, one to three distinct vocabulary conditions, age 20-79, male or female) and carries the id and name of its index |
| MockData.GenerateMockPatients | src/utils/mockData.ts:34-96 | exactly `count` patients, the k-th with id `P<1001+k>` and name `Patient <k+1>`, all well formed, no two sharing an id |
| MockData.LevelCountsSum | src/utils/mockData.ts:99-105 | the high, medium and low filters together account for every patient |
| MockData.GetRiskDistribution | src/utils/mockData.ts:99-105 | each count is the number of positions whose patient has that level; the three counts sum to the number of patients; each count is zero exactly when no patient has that level |
| MockData.LevelCount | src/utils/mockData.ts:101-103 | filtering by a level keeps exactly as many patients as there are positions at that level |
| MockData.AlertMessageInjective | src/utils/mockData.ts:117-122 | different alert types carry different messages |
| MockData.AlertMessage | src/utils/mockData.ts:117-122 | each alert type has its fixed message, and reading that message back names the same type |
| MockData.FirstMedium | src/utils/mockData.ts:126-127 | the pool's medium part is a prefix of the medium-risk patients in list order, of length min(5, number of medium patients) |
| MockData.AlertPool | src/utils/mockData.ts:125-127 | a patient is in the pool exactly when high risk or among the first five medium-risk ones; the pool is empty exactly when every patient is low risk |
| MockData.AlertIdInjective | src/utils/mockData.ts:141 | distinct indices give distinct `A<1000+i>` alert ids |
| MockData.MakeAlert | src/utils/mockData.ts:129-148 | an alert has the id of its index, names a pool patient by that patient's id and name, carries its type's message, and is stamped within the 48 hours before `now` |
| MockData.AlertIdsAt | src/utils/mockData.ts:141 | the id list holds, position by position, the ids of the alerts |
| MockData.InsertNewestFirst | src/utils/mockData.ts:152 | inserting into a newest-first list keeps it newest first and adds exactly that alert |
| MockData.SortNewestFirst | src/utils/mockData.ts:152 | the sorted alerts are in non-increasing timestamp order and are a permutation of the input |
| MockData.InsertNewestFirstStable | src/utils/mockData.ts:152 | inserting an alert puts it ahead of the alerts that share its timestamp and keeps every timestamp's alerts in order |
| MockData.SortNewestFirstStable | src/utils/mockData.ts:152 | the sort is stable: for every timestamp, the alerts carrying it appear in their input order |
| MockData.AlertIdsOfPermutation | src/utils/mockData.ts:152 | the ids of a list depend only on which alerts it holds, so sorting neither loses nor duplicates an alert id |
| MockData.TruncateTime | src/utils/mockData.ts:135-137 | `new Date(x)` keeps the integral part of the time value: a non-negative value is rounded down, a negative one up, so the sign is kept and less than one millisecond is dropped |
| MockData.BuildAlerts | src/utils/mockData.ts:128-149 | the loop builds one alert per draw; the alert at position k has id `A<1001+k>` and lies in the 48 hours before that iteration's own clock reading; each is from the pool and carries its type's message |
| MockData.GenerateMockAlerts | src/utils/mockData.ts:108-153 | exactly `count` alerts, newest first, whose ids are exactly `A1001`..`A<1000+count>`; the alert with id `A<1000+i>` lies in the 48 hours before the clock reading of iteration i; each is from the pool and carries its type's message |
| MockData.GeneratedAlertSubjects | src/utils/mockData.ts:125-143 | every generated alert names a high-risk patient or one of the first five medium-risk patients |
| SearchBar.Toggle | src/components/PatientSearchBar.tsx:46-48 | toggling flips membership of the chosen value, leaves every other value's membership alone, and keeps a duplicate-free list duplicate free |
| SearchBar.ToggleTwiceRestores | src/components/PatientSearchBar.tsx:46-48 | toggling a value on and then off gives back the original list |
| SearchBar.HandleRiskLevelChange | src/components/PatientSearchBar.tsx:45-57 | a risk checkbox flips only that level and leaves age and condition filters unchanged |
| SearchBar.HandleConditionChange | src/components/PatientSearchBar.tsx:88-100 | a condition checkbox flips only that condition and leaves risk and age filters unchanged |
| SearchBar.AgePreset | src/components/PatientSearchBar.tsx:62-77 | the four preset names, and only they, give a range, and every range lies within 18..120 |
| SearchBar.AgePresetsPartition | src/components/PatientSearchBar.tsx:62-77 | the presets cover every age from 18 to 120 without overlapping and exclude every age outside it |
| SearchBar.AgePresetNamesSpellBounds | src/components/PatientSearchBar.tsx:62-77 | each preset's name spells out its own bounds: `lo-hi`, or `lo+` for the open-ended preset that runs to 120 |
| SearchBar.HandleAgeRangeChange | src/components/PatientSearchBar.tsx:59-86 | the age filter becomes the bounds of the chosen preset; an unknown preset clears it; risk and condition filters stay as they were |
| SearchBar.ActiveIffBadgePositive | src/components/PatientSearchBar.tsx:112-115 | the "filters active" flag holds exactly when the badge count shown at line 143 is positive |
| SearchBar.HasActiveFilters | src/components/PatientSearchBar.tsx:112-115 | some filter is active exactly when the filters differ from the empty ones |
| SearchBar.BadgeCount | src/components/PatientSearchBar.tsx:143 | the badge is zero exactly for the empty filters and counts at least every selected risk level and condition |
| SearchBar.ClearFilters | src/components/PatientSearchBar.tsx:102-110 | after clearing, no filter is active and the badge shows zero |
| Text.LowerChar | src/components/PatientList.tsx:24-27 | lower-casing maps A-Z to a-z and fixes every other character |
| Text.Lower | src/components/PatientList.tsx:24-27 | lower-casing works character by character and keeps the length |
| Text.LowerIdempotent | src/components/PatientList.tsx:24-27 | lower-casing twice is lower-casing once |
| Text.IncludesIffOccurs | src/components/PatientList.tsx:24-27 | the recursive `includes` holds exactly when the needle occurs at some position of the haystack |
| Text.ParseShowNat | src/utils/mockData.ts:80 | the decimal rendering used in generated ids reads back to the same number |
| Text.ShowNatInjective | src/utils/mockData.ts:80 | different numbers render differently |
| PatientList.FilteredPatients | src/components/PatientList.tsx:20-64 | the shown list is a subsequence of the patients, in their original order, holding every copy of a kept patient and no copy of a dropped one |
| PatientList.KeepsIffSelected | src/components/PatientList.tsx:22-61 | the chained filter keeps a patient exactly when the declarative search, risk, age, condition and tab criteria hold |
| PatientList.FilteredPatientsSelects | src/components/PatientList.tsx:20-64 | a patient is shown exactly when it is in the list and meets every criterion |
| PatientList.NoFiltersShowsEverything | src/components/PatientList.tsx:22-61 | an empty query with no filters on the "all" tab shows the whole list unchanged |
| PatientList.InvertedAgeRangeShowsNobody | src/components/PatientList.tsx:39-44 | an age range whose lower bound exceeds its upper bound shows nobody |
| PatientList.ConditionMatchIsOneWay | src/components/PatientList.tsx:47-56 | the condition filter is a one-way substring test: "Diabetes" matches "Diabetes Type 2" but not the reverse |
| PatientList.HighRiskTabRefinesAll | src/components/PatientList.tsx:59-61 | the high-risk tab shows exactly the high-risk part of what the "all" tab shows, in the same order |
| PatientList.HighRiskCount | src/components/PatientList.tsx:67 | the tab badge is the number of positions holding a high-risk patient, which is the high count of the risk distribution |
| PatientList.HighRiskTabWithinBadge | src/components/PatientList.tsx:59-67 | the high-risk tab never shows more patients than its badge announces |
| AlertsPanel.UnreadReadPartition | src/components/AlertsPanel.tsx:33-34 | every alert is in exactly one of the unread and read lists, and each list keeps the original order |
| AlertsPanel.DisplayedAlerts | src/components/AlertsPanel.tsx:36-40 | "all" shows every alert, "unread" shows exactly the unread ones, and any other tab shows exactly the read ones, all in the original order and with every copy kept |
| AlertsPanel.ShowMarkAllRead | src/components/AlertsPanel.tsx:98 | the "mark all read" button appears exactly when some alert is unread |
| AlertsPanel.Elapsed | src/components/AlertsPanel.tsx:42-57 | the unit is minutes below an hour, hours below a day, days otherwise, and the count is the floor of the elapsed time in that unit |
| AlertsPanel.FormatAlertTime | src/components/AlertsPanel.tsx:42-57 | the label starts with the elapsed count and its unit word as `AlertsPanel.Elapsed` computes them, ends in " ago", the unit is plural exactly when the count is not one, and nothing else is in the label: its length is exactly that of `N unit[s] ago` |
| AlertsPanel.TypeBadgesDistinct | src/components/AlertsPanel.tsx:59-87 | the four alert types have distinct labels and styles; any other tag falls back to "Alert" and the default style |
| AlertsPanel.AlertTypeLabel | src/components/AlertsPanel.tsx:74-87 | the label is one of the five badge texts, and it is other than "Alert" exactly when the tag names a known alert type |
| AlertsPanel.AlertTypeStyle | src/components/AlertsPanel.tsx:59-72 | the style is other than the gray fallback exactly when the tag names a known alert type |
| Dashboard.UnreadAlertsCount | src/pages/Index.tsx:43 | the count is the number of positions holding an unread alert; it is zero exactly when every alert is read, and positive exactly when the panel offers "mark all read" |
| Dashboard.HandleMarkAlertAsRead | src/pages/Index.tsx:54-59 | the alert with that id becomes read; no other alert and no other field changes |
| Dashboard.MarkAlertAsReadIdempotent | src/pages/Index.tsx:54-59 | marking the same alert twice is the same as marking it once |
| Dashboard.MarkUnknownAlertIsNoOp | src/pages/Index.tsx:54-59 | marking an id that no alert has leaves the list unchanged |
| Dashboard.MarkAlertAsReadUnreadCount | src/pages/Index.tsx:43-59 | marking one id lowers the unread count by exactly the number of unread alerts carrying that id |
| Dashboard.HandleMarkAllAlertsAsRead | src/pages/Index.tsx:68-71 | every alert becomes read, nothing else changes, the unread count drops to zero and the button disappears |
| Dashboard.MarkAllAbsorbsMarkOne | src/pages/Index.tsx:54-71 | marking one alert before marking all makes no difference |
| Dashboard.MarkOneAfterMarkAllIsNoOp | src/pages/Index.tsx:54-71 | after marking all, marking one alert changes nothing |
| Dashboard.FindPatient | src/pages/Index.tsx:47 | the lookup fails exactly when no patient has the id, and otherwise returns a listed patient with that id |
| Dashboard.HandlePatientClick | src/pages/Index.tsx:46-51 | a known id selects a patient with that id; an unknown id keeps the current selection |
| Dashboard.ImpactRules | src/pages/Index.tsx:85-99 | heart disease, chronic kidney disease, and hypertension together with type 2 diabetes are high impact; asthma and arthritis are low; everything else, obesity included, is medium; and a condition's impact never depends on age, although the obesity branch tests it |
| Dashboard.ConditionImpact | src/pages/Index.tsx:85-99 | a condition is high impact exactly when it is heart disease, chronic kidney disease, or hypertension alongside type 2 diabetes, and low exactly when it is asthma or arthritis |
| Dashboard.GetRiskFactors | src/pages/Index.tsx:80-113 | one factor per condition, in order, plus an age factor after 65 that is high impact exactly after 75 |
| Dashboard.AgeFactorIffOverSixtyFive | src/pages/Index.tsx:104-110 | when no condition is itself named "Age above 65", an age factor appears exactly for patients over 65, and only in the last position |
| Dashboard.GeneratedPatientsHaveNoAgeCondition | src/utils/mockData.ts:36-47 | generated patients never carry a condition named "Age above 65", so the previous lemma applies to them |
| Dashboard.SpecificRecommendations | src/pages/Index.tsx:119-143 | one pair of advice for each rule that applies and no more: the length is twice the number of applicable rules; telehealth appears exactly for high-risk patients; the list is empty exactly when none of the four conditions applies and risk is not high |
| Dashboard.RecommendationsFollowRules | src/pages/Index.tsx:119-143 | each of the ten pieces of advice is given exactly when its rule applies: its condition is present, or, for the last pair, the risk level is high |
| Dashboard.GetRecommendations | src/pages/Index.tsx:116-152 | between one and five pairs, telehealth exactly for high risk; every item is specific advice or from the general wellness pair; the specific list is kept whole, and each of the two general items appears exactly when nothing specific applies |
| Auth.UserJson | src/context/AuthContext.tsx:66 | the stored rendering of a user is never the empty string that `if (storedUser)` would skip |
| Auth.Login | src/context/AuthContext.tsx:52-90 | login succeeds exactly for the demo credentials and then authenticates the demo doctor; a failed login changes nothing; a consistent session stays consistent |
| Auth.SubmitLogin | src/pages/Login.tsx:18-30 | an empty email or password never reaches `login`; otherwise the attempt succeeds exactly for the demo credentials |
| Auth.Signup | src/context/AuthContext.tsx:92-122 | signup authenticates the new user with the given name, email and role, whatever the password |
| Auth.Logout | src/context/AuthContext.tsx:124-133 | logout returns to the initial unauthenticated session and removes the stored user |
| Auth.RestoreAsWritten | src/context/AuthContext.tsx:37-50 | a missing or empty entry changes nothing; any non-empty stored text that parses authenticates, with the parsed user, or no user for `null`, and the entry kept; text that fails to parse is removed and the session is left as it was |
| Auth.RestoreAsWrittenBreaksConsistency | src/context/AuthContext.tsx:37-50 | a stored "null" yields an authenticated session without a user |
| Auth.Restore | src/context/AuthContext.tsx:37-50 | corrected restore: a missing or empty entry changes nothing; a parsed user record becomes the authenticated user and its entry is kept; any other entry is removed and the session is left as it was; a consistent session stays consistent |
| Auth.RestoreAfterLogin | src/context/AuthContext.tsx:56-66 | reloading after a successful login restores the demo doctor's session |
| Auth.RestoreAfterSignup | src/context/AuthContext.tsx:96-105 | reloading after signup restores the new user's session |
| Auth.RestoreAfterLogout | src/context/AuthContext.tsx:124-127 | reloading after logout stays logged out |
| Auth.RunKeepsConsistent | src/context/AuthContext.tsx:31-133 | any sequence of login, signup, logout and restore events keeps "authenticated exactly when a user is present" |
| Otp.HandleVerify | src/pages/OtpVerification.tsx:33-44 | verification is attempted exactly when the code has six characters, and passes on the code and phone unchanged |
| Otp.LastTen | src/pages/OtpVerification.tsx:53 | `slice(-10)` is the last min(10, length) characters |
| Otp.MaskFirstDigitRun | src/pages/OtpVerification.tsx:53 | the regex replacement keeps the length |
| Otp.MaskShortString | src/pages/OtpVerification.tsx:53 | on at most ten characters the pattern matches only a string of exactly ten digits, masking its first six |
| Otp.FormatPhoneNumber | src/pages/OtpVerification.tsx:51-54 | ten trailing digits are shown as `XXXXXX` and their last four; anything else is shown as its last ten characters, unmasked |
| Otp.FormatPhoneShowsOnlyLastFour | src/pages/OtpVerification.tsx:51-54 | the formatted number always ends with the phone's last four characters, and for a phone ending in ten digits nothing but those four is revealed |
| Otp.Tick | src/pages/OtpVerification.tsx:25-31 | a positive countdown decreases by one per second; zero stays put |
| Otp.TicksStopAtZero | src/pages/OtpVerification.tsx:25-31 | after n seconds a countdown c shows max(c - n, 0) |
| Otp.ResendOfferedAfterThirtySeconds | src/pages/OtpVerification.tsx:109-118 | starting from 30, the resend link appears exactly after thirty seconds |
| Otp.HandleResendOtpAsWritten | src/pages/OtpVerification.tsx:46-49 | as written, a resend leaves an available resend link available |
| Otp.ResendAsWrittenNeverRestarts | src/pages/OtpVerification.tsx:46-49 | as written, clicking resend at zero never hides the link again |
| Otp.HandleResendOtp | src/pages/OtpVerification.tsx:46-49 | corrected resend restarts the countdown at thirty and hides the link |
| Otp.ResendWaitsThirtySeconds | src/pages/OtpVerification.tsx:46-49 | after a corrected resend, the link reappears exactly after thirty seconds |
| Seqs.FilterIsSubsequence | src/components/PatientList.tsx:20 | `filter` keeps the surviving elements in their original order |
| Seqs.FilterConjunction | src/components/PatientList.tsx:20-61 | filtering by a conjunction is filtering by each conjunct in turn |
| Seqs.FilterCount | src/components/AlertsPanel.tsx:33-34 | `filter` keeps every occurrence of a kept value and none of a dropped one |
| Seqs.FilterPartition | src/components/AlertsPanel.tsx:33-34 | filtering by a predicate and by its negation splits the list without loss or duplication |

## Left out

- Rendering: JSX layout, tabs and sheets, charts (`RiskDistributionChart`), `RiskLevelBadge`, `PatientCard`, `DashboardHeader`, the risk timeline and the PDF export. These are presentation only. The PDF export also reads an undeclared `contactInfo.address`.
- Toasts, `navigate`, `console` output and the `isLoading` flags of the sign-in and OTP pages are side effects with no bearing on state.
- The effect in `OtpVerification.tsx` that redirects to `/login` when no phone was passed is navigation and is left out.
- `JSON.stringify`/`JSON.parse` escaping: `Auth.UserJson` is a readable rendering. What parsing yields is carried in `Auth.Stored` beside the text rather than recomputed.
- The `catch` branches of `login` and `signup` (src/context/AuthContext.tsx:82-89, 114-121) only log the error and show a failure toast. They change no state and the bodies they guard cannot throw in the model, so they are not modelled.
- `Auth.Signup`: the `Math.random()` id string is an input.
- Floating point: the draws are exact reals, so `Math.random() * n` never rounds up to `n`.
- `lastCheckup`: the random date in the last six months and its `toISOString().split('T')[0]` formatting are not modelled. The date string is an input, `PatientDraws.lastCheckup`, copied into the patient unchanged. `MockData.TruncateTime` is used only for alert timestamps.
- `toLocaleDateString`/`toLocaleString` displays are not modelled.
- The percentage display in `Index.tsx` is not modelled.
- String lengths: JavaScript's `length` and `slice(-10)` count UTF-16 code units, while a Dafny string counts characters. The two agree only on text without characters outside the Basic Multilingual Plane. `Otp.LastTen`, `Otp.HandleVerify` and the length bounds throughout are stated in characters.
- `Text.Lower`: only ASCII letters are lower-cased. JavaScript's Unicode case mapping is not modelled.
- The phone number and email are generated from draws but not constrained further; gender is constrained only to be male or female. The draws are bounded by the `Unit` type, and `MockData.ValidPatientDraws` only requires the shuffle order to be a permutation.
- `MockData.GenerateMockPatients`: `count` is a natural number. Negative or fractional counts are not modelled.
- `MockData.GenerateMockAlerts`: requires a non-empty pool when `count > 0`, because the code throws on an empty pool.
- `Otp.HandleVerify`: models only the six-character guard. The context provides no `verifyOtp`, so the awaited call throws and is caught. The model passes the code and phone on instead.
- `Otp.Tick`: each timer firing is one discrete step. The timeout cleanup on unmount is not modelled.
- `Otp.MaskFirstDigitRun`: its contract states only that length is kept. The masking behaviour is stated where it matters, by `Otp.MaskShortString` and `Otp.FormatPhoneNumber` on the at most ten characters that `slice(-10)` leaves.

## Findings

| source | as written | input that shows it | evidently intended | confidence | as-written member | corrected member |
|---|---|---|---|---|---|---|
| src/pages/OtpVerification.tsx:46-49 | `handleResendOtp` awaits `resendOtp` from the auth context, which provides no such function, so the call throws before `setCountdown(30)` | countdown at 0, click "Resend OTP" | the countdown restarts at 30 and the link is hidden for thirty seconds | not executed; high | Otp.HandleResendOtpAsWritten | Otp.HandleResendOtp |
| src/context/AuthContext.tsx:37-50 | whatever `JSON.parse` returns becomes the user and the session is marked authenticated | stored text `null` | only a parsed user record authenticates; anything else is discarded like unparsable text | not executed; medium | Auth.RestoreAsWritten | Auth.Restore |

`Otp.ResendAsWrittenNeverRestarts` and `Auth.RestoreAsWrittenBreaksConsistency` exhibit the two discrepancies. `Otp.ResendWaitsThirtySeconds` and `Auth.RunKeepsConsistent` prove the intended properties of the corrected members.

=== FILE: alerts_panel.dfy ===
/** The alerts side panel: the unread/read split, the tab view, the relative time label,
    the per-type badge label and colours, and when "Mark all read" is offered. */
module AlertsPanel {
  import opened Seqs
  import opened Text
  import opened MockData

  function Unread(a: Alert): bool { !a.isRead }

  function Read(a: Alert): bool { a.isRead }

  function UnreadAlerts(alerts: seq<Alert>): seq<Alert>
  {
    Filter(Unread, alerts)
  }

  function ReadAlerts(alerts: seq<Alert>): seq<Alert>
  {
    Filter(Read, alerts)
  }

  /** The two lists split the alerts: each keeps input order, no alert is in both, and
      together they hold every alert exactly as often as the input. */
  lemma UnreadReadPartition(alerts: seq<Alert>)
    ensures |UnreadAlerts(alerts)| + |ReadAlerts(alerts)| == |alerts|
    ensures multiset(UnreadAlerts(alerts)) + multiset(ReadAlerts(alerts)) == multiset(alerts)
    ensures forall a :: a in UnreadAlerts(alerts) ==> a !in ReadAlerts(alerts)
    ensures IsSubsequence(UnreadAlerts(alerts), alerts) && IsSubsequence(ReadAlerts(alerts), alerts)
  {
    FilterPartition(Unread, Read, alerts);
    FilterIsSubsequence(Unread, alerts);
    FilterIsSubsequence(Read, alerts);
  }

  /** The alerts listed under the active tab: "all" lists everything, "unread" the unread
      ones, and any other tab the read ones. */
  function DisplayedAlerts(alerts: seq<Alert>, tab: string): (r: seq<Alert>)
    ensures IsSubsequence(r, alerts)
    ensures tab == "all" ==> r == alerts
    ensures tab == "unread" ==> forall a :: a in r <==> a in alerts && !a.isRead
    ensures tab != "all" && tab != "unread" ==> forall a :: a in r <==> a in alerts && a.isRead
    ensures tab == "unread" ==> forall a :: multiset(r)[a] == if !a.isRead then multiset(alerts)[a] else 0
    ensures tab != "all" && tab != "unread" ==>
      forall a :: multiset(r)[a] == if a.isRead then multiset(alerts)[a] else 0
  {
    UnreadReadPartition(alerts);
    FilterCount(Unread, alerts);
    FilterCount(Read, alerts);
    if tab == "all" then
      FilterKeepsAll((a: Alert) => true, alerts);
      FilterIsSubsequence((a: Alert) => true, alerts);
      alerts
    else if tab == "unread" then UnreadAlerts(alerts)
    else ReadAlerts(alerts)
  }

  /** "Mark all read" is offered exactly when some alert is unread. */
  function ShowMarkAllRead(alerts: seq<Alert>): (shown: bool)
    ensures shown <==> exists a :: a in alerts && !a.isRead
  {
    var unread := UnreadAlerts(alerts);
    assert |unread| > 0 ==> unread[0] in unread;
    |unread| > 0
  }

  // ---------------------------------------------------------------------------
  // Relative time

  const MinuteMs: int := 1000 * 60
  const HourMs: int := 1000 * 60 * 60
  const DayMs: int := 1000 * 60 * 60 * 24

  datatype TimeUnit = Minutes | Hours | Days

  function UnitMs(u: TimeUnit): int
  {
    match u
    case Minutes => MinuteMs
    case Hours => HourMs
    case Days => DayMs
  }

  /** How long ago an alert happened, given the difference `now - timestamp` in
      milliseconds: whole minutes below an hour, whole hours below a day, whole days
      otherwise, each rounded down as `Math.floor` does. */
  function Elapsed(diffMs: int): (r: (int, TimeUnit))
    ensures r.1 == Minutes <==> diffMs < HourMs
    ensures r.1 == Hours <==> HourMs <= diffMs < DayMs
    ensures r.1 == Days <==> DayMs <= diffMs
    ensures r.0 * UnitMs(r.1) <= diffMs < (r.0 + 1) * UnitMs(r.1)
    ensures r.1 == Minutes ==> r.0 < 60
    ensures r.1 == Hours ==> 1 <= r.0 < 24
    ensures r.1 == Days ==> r.0 >= 1
  {
    var minutes := diffMs / MinuteMs;
    var hours := diffMs / HourMs;
    var days := diffMs / DayMs;
    if minutes < 60 then (minutes, Minutes)
    else if hours < 24 then (hours, Hours)
    else (days, Days)
  }

  function UnitWord(u: TimeUnit): string
  {
    match u
    case Minutes => "min"
    case Hours => "hour"
    case Days => "day"
  }

  /** The label "N unit ago", with the unit pluralised unless N is 1. */
  function FormatAlertTime(diffMs: int): (s: string)
    ensures |s| > 5
    ensures var e := Elapsed(diffMs);
      |s| >= |ShowInt(e.0)| + 1 + |UnitWord(e.1)|
      && s[..|ShowInt(e.0)| + 1 + |UnitWord(e.1)|] == ShowInt(e.0) + " " + UnitWord(e.1)
    ensures var e := Elapsed(diffMs);
      |s| == |ShowInt(e.0)| + 1 + |UnitWord(e.1)| + (if e.0 != 1 then 1 else 0) + 4
    ensures s[|s| - 4..] == " ago"
    ensures s[|s| - 5] == 's' <==> Elapsed(diffMs).0 != 1
  {
    var e := Elapsed(diffMs);
    ShowInt(e.0) + " " + UnitWord(e.1) + (if e.0 != 1 then "s" else "") + " ago"
  }

  // ---------------------------------------------------------------------------
  // Type badge

  /** The badge text for an alert's type string; an unknown string reads "Alert". */
  function AlertTypeLabel(tag: string): (text: string)
    ensures text != "Alert" <==> exists t: AlertType :: tag == AlertTypeTag(t)
    ensures text in ["Risk Increase", "Missed Appointment", "New Condition", "Medication", "Alert"]
  {
    match tag
    case "risk-increase" => assert tag == AlertTypeTag(RiskIncrease); "Risk Increase"
    case "missed-appointment" => assert tag == AlertTypeTag(MissedAppointment); "Missed Appointment"
    case "new-condition" => assert tag == AlertTypeTag(NewCondition); "New Condition"
    case "medication" => assert tag == AlertTypeTag(Medication); "Medication"
    case _ => "Alert"
  }

  /** The badge colours for an alert's type string; an unknown string is grey. */
  function AlertTypeStyle(tag: string): (style: string)
    ensures style != "bg-gray-100 text-gray-800" <==> exists t: AlertType :: tag == AlertTypeTag(t)
  {
    match tag
    case "risk-increase" => assert tag == AlertTypeTag(RiskIncrease); "bg-red-100 text-red-800"
    case "missed-appointment" => assert tag == AlertTypeTag(MissedAppointment); "bg-yellow-100 text-yellow-800"
    case "new-condition" => assert tag == AlertTypeTag(NewCondition); "bg-purple-100 text-purple-800"
    case "medication" => assert tag == AlertTypeTag(Medication); "bg-blue-100 text-blue-800"
    case _ => "bg-gray-100 text-gray-800"
  }

  const FallbackStyle := "bg-gray-100 text-gray-800"

  /** The label and colouring of each alert type, read through its tag. */
  function TypeBadge(t: AlertType): (string, string)
  {
    (AlertTypeLabel(AlertTypeTag(t)), AlertTypeStyle(AlertTypeTag(t)))
  }

  /** A string that is none of the four tags gets the "Alert" label and the grey style. */
  lemma UnknownTagBadge(tag: string)
    requires forall t: AlertType :: tag != AlertTypeTag(t)
    ensures AlertTypeLabel(tag) == "Alert" && AlertTypeStyle(tag) == FallbackStyle
  {
  }

  /** The four alert types' labels and colourings, all different and none the fallback. */
  lemma KnownTypeBadges()
    ensures forall t: AlertType, u: AlertType :: t != u ==>
      AlertTypeLabel(AlertTypeTag(t)) != AlertTypeLabel(AlertTypeTag(u))
      && AlertTypeStyle(AlertTypeTag(t)) != AlertTypeStyle(AlertTypeTag(u))
    ensures forall t: AlertType ::
      AlertTypeLabel(AlertTypeTag(t)) != "Alert" && AlertTypeStyle(AlertTypeTag(t)) != FallbackStyle
  {
    forall t: AlertType, u: AlertType | t != u
      ensures AlertTypeLabel(AlertTypeTag(t)) != AlertTypeLabel(AlertTypeTag(u))
      ensures AlertTypeStyle(AlertTypeTag(t)) != AlertTypeStyle(AlertTypeTag(u))
    {
      TypeBadgeTable(t);
      TypeBadgeTable(u);
    }
    forall t: AlertType
      ensures AlertTypeLabel(AlertTypeTag(t)) != "Alert" && AlertTypeStyle(AlertTypeTag(t)) != FallbackStyle
    {
      TypeBadgeTable(t);
    }
  }

  /** The badge of each type, read off the two tables. */
  lemma TypeBadgeTable(t: AlertType)
    ensures TypeBadge(t) == match t
      case RiskIncrease => ("Risk Increase", "bg-red-100 text-red-800")
      case MissedAppointment => ("Missed Appointment", "bg-yellow-100 text-yellow-800")
      case NewCondition => ("New Condition", "bg-purple-100 text-purple-800")
      case Medication => ("Medication", "bg-blue-100 text-blue-800")
  {
  }

  /** The four alert types get four different labels and four different colourings, none
      of them the fallback; every string that is not a type's tag gets the fallback. */
  lemma TypeBadgesDistinct()
    ensures forall t: AlertType, u: AlertType :: t != u ==>
      AlertTypeLabel(AlertTypeTag(t)) != AlertTypeLabel(AlertTypeTag(u))
      && AlertTypeStyle(AlertTypeTag(t)) != AlertTypeStyle(AlertTypeTag(u))
    ensures forall t: AlertType ::
      AlertTypeLabel(AlertTypeTag(t)) != "Alert" && AlertTypeStyle(AlertTypeTag(t)) != FallbackStyle
    ensures forall tag :: (forall t: AlertType :: tag != AlertTypeTag(t)) ==>
      AlertTypeLabel(tag) == "Alert" && AlertTypeStyle(tag) == FallbackStyle
  {
    KnownTypeBadges();
    forall tag | forall t: AlertType :: tag != AlertTypeTag(t)
      ensures AlertTypeLabel(tag) == "Alert" && AlertTypeStyle(tag) == FallbackStyle
    {
      UnknownTagBadge(tag);
    }
  }
}

=== FILE: auth_context.dfy ===
/** The mock authentication context: the session `(user, isAuthenticated)` and the stored
    `user` entry of local storage, with login, signup, logout and the restore that runs
    when the context mounts. Toasts and navigation are left out, and `JSON.parse` is
    represented by its outcome. */
module Auth {
  import opened Wrappers

  datatype Role = Doctor | Nurse | Admin

  datatype User = User(id: string, name: string, email: string, role: Role)

  datatype Session = Session(user: Option<User>, isAuthenticated: bool)

  /** What `JSON.parse` makes of the stored text: an exception, the value `null`, or a
      value the context takes as the user. */
  datatype Parsed = Malformed | ParsedNull | ParsedUser(user: User)

  /** The stored `user` entry: absent, or its text and what parsing that text gives. */
  datatype Stored = Absent | Present(text: string, parsed: Parsed)

  datatype Context = Context(session: Session, stored: Stored)

  /** The session invariant: authenticated exactly when there is a user. */
  predicate Consistent(s: Session)
  {
    s.isAuthenticated <==> s.user.Some?
  }

  const InitialSession := Session(None, false)

  const DemoEmail := "dr.rajput@example.com"
  const DemoPassword := "password"
  const DemoUser := User("1", "Dr. Rajput", DemoEmail, Doctor)

  function RoleName(role: Role): string
  {
    match role
    case Doctor => "doctor"
    case Nurse => "nurse"
    case Admin => "admin"
  }

  /** The text `JSON.stringify` produces for a user (string escaping is not modelled). */
  function UserJson(u: User): (text: string)
    ensures |text| > 0
  {
    "{\"id\":\"" + u.id + "\",\"name\":\"" + u.name + "\",\"email\":\"" + u.email
      + "\",\"role\":\"" + RoleName(u.role) + "\"}"
  }

  /** The entry written for a signed-in user; parsing it gives the user back. */
  function Save(u: User): Stored
  {
    Present(UserJson(u), ParsedUser(u))
  }

  /** Whether a sign-in was not attempted (an empty field), accepted or rejected. */
  datatype Attempt = NotAttempted | Accepted | Rejected

  /** `login`: the demo credentials sign in the demo doctor; anything else changes
      nothing. */
  function Login(c: Context, email: string, password: string): (r: (Context, Attempt))
    ensures r.1 != NotAttempted
    ensures r.1 == Accepted <==> email == DemoEmail && password == DemoPassword
    ensures r.1 == Accepted ==> r.0.session.user == Some(DemoUser) && r.0.session.isAuthenticated
    ensures r.1 == Rejected ==> r.0 == c
    ensures Consistent(c.session) ==> Consistent(r.0.session)
  {
    if email == DemoEmail && password == DemoPassword then
      (Context(Session(Some(DemoUser), true), Save(DemoUser)), Accepted)
    else (c, Rejected)
  }

  /** The sign-in form: an empty email or password stops it before `login` is called. */
  function SubmitLogin(c: Context, email: string, password: string): (r: (Context, Attempt))
    ensures r.1 == NotAttempted <==> email == "" || password == ""
    ensures r.1 == Accepted <==> email == DemoEmail && password == DemoPassword
    ensures r.1 != Accepted ==> r.0 == c
  {
    if email == "" || password == "" then (c, NotAttempted) else Login(c, email, password)
  }

  /** `signup`: signs in a new user with the given details; `id` stands for the random id
      the source generates. The password is not looked at. */
  function Signup(c: Context, id: string, name: string, email: string, password: string, role: Role): (r: Context)
    ensures r.session.isAuthenticated && Consistent(r.session)
    ensures r.session.user.Some? && r.session.user.value == User(id, name, email, role)
  {
    var u := User(id, name, email, role);
    Context(Session(Some(u), true), Save(u))
  }

  /** `logout`: from any state, no user, not authenticated, and no stored entry. */
  function Logout(c: Context): (r: Context)
    ensures r.session == InitialSession && Consistent(r.session)
    ensures r.stored == Absent
  {
    Context(InitialSession, Absent)
  }

  /** The restore on mount as the source writes it: an empty or missing entry is ignored,
      an unparsable one is removed, and any parsed value, `null` included, becomes the
      user and authenticates. */
  function RestoreAsWritten(c: Context): (r: Context)
    ensures c.stored.Absent? || c.stored.text == "" ==> r == c
    ensures c.stored.Present? && c.stored.text != "" && c.stored.parsed != Malformed ==> r.session.isAuthenticated
    ensures c.stored.Present? && c.stored.text != "" && c.stored.parsed.ParsedUser? ==>
      r.session.user == Some(c.stored.parsed.user) && r.stored == c.stored
    ensures c.stored.Present? && c.stored.text != "" && c.stored.parsed == ParsedNull ==>
      r.session.user == None && r.stored == c.stored
    ensures c.stored.Present? && c.stored.text != "" && c.stored.parsed == Malformed ==> r == Context(c.session, Absent)
  {
    match c.stored
    case Absent => c
    case Present(text, parsed) =>
      if text == "" then c
      else
        match parsed
        case Malformed => Context(c.session, Absent)
        case ParsedNull => Context(Session(None, true), c.stored)
        case ParsedUser(u) => Context(Session(Some(u), true), c.stored)
  }

  /** A stored text "null" parses, and the restore as written then reports an
      authenticated session with no user. */
  lemma RestoreAsWrittenBreaksConsistency()
    ensures Consistent(InitialSession)
    ensures !Consistent(RestoreAsWritten(Context(InitialSession, Present("null", ParsedNull))).session)
  {
  }

  /** The restore with the evident intent: only a parsed user authenticates; any other
      parse result is treated like a parse failure and the entry is removed. */
  function Restore(c: Context): (r: Context)
    ensures Consistent(c.session) ==> Consistent(r.session)
    ensures r.session != c.session ==>
      r.session.isAuthenticated && r.session.user.Some? && c.stored.Present?
      && c.stored.parsed == ParsedUser(r.session.user.value)
    ensures r.stored == c.stored || r.stored == Absent
    ensures c.stored.Absent? || c.stored.text == "" ==> r == c
    ensures c.stored.Present? && c.stored.text != "" && c.stored.parsed.ParsedUser? ==>
      r.session == Session(Some(c.stored.parsed.user), true) && r.stored == c.stored
    ensures c.stored.Present? && c.stored.text != "" && !c.stored.parsed.ParsedUser? ==>
      r == Context(c.session, Absent)
  {
    match c.stored
    case Absent => c
    case Present(text, parsed) =>
      if text == "" then c
      else
        match parsed
        case ParsedUser(u) => Context(Session(Some(u), true), c.stored)
        case _ => Context(c.session, Absent)
  }

  /** Reloading after a successful login restores the same session. */
  lemma RestoreAfterLogin(c: Context)
    ensures var after := Login(c, DemoEmail, DemoPassword).0;
      Restore(Context(InitialSession, after.stored)) == after
  {
  }

  /** Reloading after a signup restores the new user's session. */
  lemma RestoreAfterSignup(c: Context, id: string, name: string, email: string, password: string, role: Role)
    ensures var after := Signup(c, id, name, email, password, role);
      Restore(Context(InitialSession, after.stored)) == after
  {
  }

  /** Reloading after a logout starts signed out. */
  lemma RestoreAfterLogout(c: Context)
    ensures Restore(Context(InitialSession, Logout(c).stored)) == Context(InitialSession, Absent)
  {
  }

  datatype Event =
    | SubmitLoginEvent(email: string, password: string)
    | SignupEvent(id: string, name: string, email: string, password: string, role: Role)
    | LogoutEvent
    | RestoreEvent

  function Step(c: Context, e: Event): Context
  {
    match e
    case SubmitLoginEvent(email, password) => SubmitLogin(c, email, password).0
    case SignupEvent(id, name, email, password, role) => Signup(c, id, name, email, password, role)
    case LogoutEvent => Logout(c)
    case RestoreEvent => Restore(c)
  }

  function Run(c: Context, events: seq<Event>): Context
    decreases |events|
  {
    if |events| == 0 then c else Run(Step(c, events[0]), events[1..])
  }

  /** Starting from the initial session with any stored entry, every sequence of sign-ins,
      signups, logouts and restores keeps the session invariant. */
  lemma {:induction false} RunKeepsConsistent(c: Context, events: seq<Event>)
    requires Consistent(c.session)
    ensures Consistent(Run(c, events).session)
    decreases |events|
  {
    if |events| > 0 {
      var next := Step(c, events[0]);
      assert Consistent(next.session) by {
        match events[0]
        case SubmitLoginEvent(email, password) =>
        case SignupEvent(id, name, email, password, role) =>
        case LogoutEvent =>
        case RestoreEvent =>
      }
      RunKeepsConsistent(next, events[1..]);
    }
  }
}

=== FILE: index_page.dfy ===
/** The dashboard page's own rules: the unread count, marking one or all alerts read,
    choosing the patient to show, and the risk factors and recommendations of the patient
    detail view. */
module Dashboard {
  import opened Wrappers
  import opened Seqs
  import opened MockData
  import opened AlertsPanel

  /** The number on the alerts bell. */
  function UnreadAlertsCount(alerts: seq<Alert>): (n: nat)
    ensures n == |set k | 0 <= k < |alerts| && !alerts[k].isRead|
    ensures n <= |alerts|
    ensures n == 0 <==> forall a :: a in alerts ==> a.isRead
    ensures n > 0 <==> ShowMarkAllRead(alerts)
  {
    var unread := UnreadAlerts(alerts);
    FilterLengthIsPositionCount(Unread, alerts, set k | 0 <= k < |alerts| && !alerts[k].isRead);
    assert |unread| > 0 ==> unread[0] in unread;
    |unread|
  }

  function MarkIfId(a: Alert, alertId: string): Alert
  {
    if a.id == alertId then a.(isRead := true) else a
  }

  /** Marks the alerts carrying `alertId` read; every other field, every other alert, the
      length and the order stay as they were. */
  function HandleMarkAlertAsRead(alerts: seq<Alert>, alertId: string): (r: seq<Alert>)
    ensures |r| == |alerts|
    ensures forall k :: 0 <= k < |r| ==> r[k].isRead == (alerts[k].isRead || alerts[k].id == alertId)
    ensures forall k :: 0 <= k < |r| ==> r[k].(isRead := alerts[k].isRead) == alerts[k]
  {
    if |alerts| == 0 then []
    else [MarkIfId(alerts[0], alertId)] + HandleMarkAlertAsRead(alerts[1..], alertId)
  }

  /** Marking the same alert twice is marking it once. */
  lemma MarkAlertAsReadIdempotent(alerts: seq<Alert>, alertId: string)
    ensures HandleMarkAlertAsRead(HandleMarkAlertAsRead(alerts, alertId), alertId)
         == HandleMarkAlertAsRead(alerts, alertId)
  {
    var once := HandleMarkAlertAsRead(alerts, alertId);
    var twice := HandleMarkAlertAsRead(once, alertId);
    forall k | 0 <= k < |alerts| ensures twice[k] == once[k] {
      assert once[k].id == alerts[k].id;
    }
  }

  /** An id no alert carries changes nothing. */
  lemma MarkUnknownAlertIsNoOp(alerts: seq<Alert>, alertId: string)
    requires forall a :: a in alerts ==> a.id != alertId
    ensures HandleMarkAlertAsRead(alerts, alertId) == alerts
  {
    var r := HandleMarkAlertAsRead(alerts, alertId);
    forall k | 0 <= k < |alerts| ensures r[k] == alerts[k] {
      assert alerts[k] in alerts;
    }
  }

  function UnreadWithId(alertId: string): Alert -> bool
  {
    (a: Alert) => !a.isRead && a.id == alertId
  }

  /** Marking an id read lowers the unread count by exactly the number of unread alerts
      that carry it. */
  lemma {:induction false} MarkAlertAsReadUnreadCount(alerts: seq<Alert>, alertId: string)
    ensures UnreadAlertsCount(HandleMarkAlertAsRead(alerts, alertId))
         == UnreadAlertsCount(alerts) - |Filter(UnreadWithId(alertId), alerts)|
  {
    if |alerts| > 0 {
      MarkAlertAsReadUnreadCount(alerts[1..], alertId);
      var r := HandleMarkAlertAsRead(alerts, alertId);
      assert r[1..] == HandleMarkAlertAsRead(alerts[1..], alertId);
    }
  }

  /** Marks every alert read, changing nothing else. */
  function HandleMarkAllAlertsAsRead(alerts: seq<Alert>): (r: seq<Alert>)
    ensures |r| == |alerts|
    ensures forall k :: 0 <= k < |r| ==> r[k].isRead && r[k].(isRead := alerts[k].isRead) == alerts[k]
    ensures UnreadAlertsCount(r) == 0
    ensures !ShowMarkAllRead(r)
  {
    if |alerts| == 0 then []
    else
      var rest := HandleMarkAllAlertsAsRead(alerts[1..]);
      var r := [alerts[0].(isRead := true)] + rest;
      assert forall a :: a in r ==> a.isRead;
      r
  }

  /** Marking all read absorbs an earlier single mark. */
  lemma MarkAllAbsorbsMarkOne(alerts: seq<Alert>, alertId: string)
    ensures HandleMarkAllAlertsAsRead(HandleMarkAlertAsRead(alerts, alertId)) == HandleMarkAllAlertsAsRead(alerts)
  {
    var all := HandleMarkAllAlertsAsRead(alerts);
    var one := HandleMarkAlertAsRead(alerts, alertId);
    var oneThenAll := HandleMarkAllAlertsAsRead(one);
    forall k | 0 <= k < |alerts| ensures oneThenAll[k] == all[k] {
      assert oneThenAll[k] == one[k].(isRead := true);
      assert all[k] == alerts[k].(isRead := true);
      assert one[k].(isRead := alerts[k].isRead) == alerts[k];
    }
  }

  /** After marking all read, marking one changes nothing. */
  lemma MarkOneAfterMarkAllIsNoOp(alerts: seq<Alert>, alertId: string)
    ensures HandleMarkAlertAsRead(HandleMarkAllAlertsAsRead(alerts), alertId) == HandleMarkAllAlertsAsRead(alerts)
  {
    var all := HandleMarkAllAlertsAsRead(alerts);
    var allThenOne := HandleMarkAlertAsRead(all, alertId);
    forall k | 0 <= k < |alerts| ensures allThenOne[k] == all[k] {
      assert allThenOne[k].(isRead := all[k].isRead) == all[k];
      assert all[k].isRead;
    }
  }

  // ---------------------------------------------------------------------------
  // Patient selection

  /** The first patient carrying `patientId` (`Array.prototype.find`). */
  function FindPatient(ps: seq<Patient>, patientId: string): (r: Option<Patient>)
    ensures r.None? <==> forall p :: p in ps ==> p.id != patientId
    ensures r.Some? ==> exists k :: 0 <= k < |ps| && ps[k] == r.value && r.value.id == patientId
                          && forall j :: 0 <= j < k ==> ps[j].id != patientId
  {
    if |ps| == 0 then None
    else if ps[0].id == patientId then Some(ps[0])
    else
      var r := FindPatient(ps[1..], patientId);
      assert ps == [ps[0]] + ps[1..];
      if r.Some? then
        var k :| 0 <= k < |ps[1..]| && ps[1..][k] == r.value && r.value.id == patientId
                 && forall j :: 0 <= j < k ==> ps[1..][j].id != patientId;
        assert ps[k + 1] == r.value;
        assert forall j :: 0 <= j < k + 1 ==> ps[j].id != patientId by {
          forall j | 0 <= j < k + 1 ensures ps[j].id != patientId {
            if j > 0 { assert ps[j] == ps[1..][j - 1]; }
          }
        }
        r
      else r
  }

  /** A click selects the first patient with the clicked id; when there is none the
      current selection stays. */
  function HandlePatientClick(selected: Option<Patient>, ps: seq<Patient>, patientId: string): (r: Option<Patient>)
    ensures (forall p :: p in ps ==> p.id != patientId) ==> r == selected
    ensures (exists p :: p in ps && p.id == patientId) ==> r.Some? && r.value in ps && r.value.id == patientId
  {
    var found := FindPatient(ps, patientId);
    if found.Some? then found else selected
  }

  // ---------------------------------------------------------------------------
  // Risk factors

  datatype Impact = HighImpact | MediumImpact | LowImpact

  datatype RiskFactor = RiskFactor(factor: string, impact: Impact)

  const AgeFactor := "Age above 65"

  /** The impact of one condition of a patient with conditions `conditions` and age `age`.
      The obesity branch assigns the value every unmatched condition gets anyway. */
  function ConditionImpact(condition: string, conditions: seq<string>, age: int): (r: Impact)
    ensures r == HighImpact <==>
      condition == "Heart Disease" || condition == "Chronic Kidney Disease"
      || (condition == "Hypertension" && "Diabetes Type 2" in conditions)
    ensures r == LowImpact <==> condition == "Asthma" || condition == "Arthritis"
  {
    if condition == "Heart Disease" || condition == "Chronic Kidney Disease" then HighImpact
    else if condition == "Hypertension" && "Diabetes Type 2" in conditions then HighImpact
    else if condition == "Obesity" && age > 50 then MediumImpact
    else if condition == "Asthma" || condition == "Arthritis" then LowImpact
    else MediumImpact
  }

  /** The impact rules as a table: high for heart and kidney disease and for hypertension
      together with type 2 diabetes, low for asthma and arthritis, medium otherwise; age
      never matters, obesity included. */
  lemma ImpactRules(condition: string, conditions: seq<string>, age: int, otherAge: int)
    ensures ConditionImpact(condition, conditions, age) == HighImpact <==>
      condition == "Heart Disease" || condition == "Chronic Kidney Disease"
      || (condition == "Hypertension" && "Diabetes Type 2" in conditions)
    ensures ConditionImpact(condition, conditions, age) == LowImpact <==>
      condition == "Asthma" || condition == "Arthritis"
    ensures condition == "Obesity" ==> ConditionImpact(condition, conditions, age) == MediumImpact
    ensures ConditionImpact(condition, conditions, age) == ConditionImpact(condition, conditions, otherAge)
  {
  }

  /** One factor per condition, in condition order, then the age factor when the patient is
      over 65 (high impact over 75). */
  function GetRiskFactors(p: Patient): (r: seq<RiskFactor>)
    ensures |r| == |p.conditions| + (if p.age > 65 then 1 else 0)
    ensures forall k :: 0 <= k < |p.conditions| ==>
      r[k].factor == p.conditions[k] && r[k].impact == ConditionImpact(p.conditions[k], p.conditions, p.age)
    ensures p.age > 65 ==> r[|p.conditions|].factor == AgeFactor
    ensures p.age > 65 ==> (r[|p.conditions|].impact == HighImpact <==> p.age > 75)
  {
    var fromConditions := seq(|p.conditions|, k requires 0 <= k < |p.conditions| =>
      RiskFactor(p.conditions[k], ConditionImpact(p.conditions[k], p.conditions, p.age)));
    if p.age > 65 then
      fromConditions + [RiskFactor(AgeFactor, if p.age > 75 then HighImpact else MediumImpact)]
    else fromConditions
  }

  /** For a patient none of whose conditions is named like the age factor, the age factor
      appears exactly when the patient is over 65, and only in the last place. */
  lemma AgeFactorIffOverSixtyFive(p: Patient)
    requires AgeFactor !in p.conditions
    ensures (exists k :: 0 <= k < |GetRiskFactors(p)| && GetRiskFactors(p)[k].factor == AgeFactor) <==> p.age > 65
    ensures forall k :: 0 <= k < |GetRiskFactors(p)| && GetRiskFactors(p)[k].factor == AgeFactor ==> k == |p.conditions|
  {
    var r := GetRiskFactors(p);
    forall k | 0 <= k < |p.conditions| ensures r[k].factor != AgeFactor {
      assert p.conditions[k] in p.conditions;
    }
  }

  /** No generated patient has a condition named like the age factor. */
  lemma GeneratedPatientsHaveNoAgeCondition(p: Patient)
    requires WellFormed(p)
    ensures AgeFactor !in p.conditions
  {
  }

  // ---------------------------------------------------------------------------
  // Recommendations

  const Telehealth := "Weekly telehealth check-ins"
  const GeneralPair := ["Regular wellness check-ups", "Health education resources"]

  /** The condition-driven and risk-driven recommendations, two per rule that applies. */
  function SpecificRecommendations(p: Patient): (r: seq<string>)
    ensures |r| % 2 == 0 && |r| <= 10
    ensures |r| == 2 * ((if "Hypertension" in p.conditions then 1 else 0)
                      + (if "Diabetes Type 2" in p.conditions then 1 else 0)
                      + (if "Heart Disease" in p.conditions then 1 else 0)
                      + (if "Obesity" in p.conditions then 1 else 0)
                      + (if p.riskLevel == High then 1 else 0))
    ensures Telehealth in r <==> p.riskLevel == High
    ensures |r| == 0 <==>
      && "Hypertension" !in p.conditions && "Diabetes Type 2" !in p.conditions
      && "Heart Disease" !in p.conditions && "Obesity" !in p.conditions
      && p.riskLevel != High
    ensures forall x :: x in r ==> x !in GeneralPair
  {
    var hypertension := if "Hypertension" in p.conditions
      then ["Regular blood pressure monitoring", "Dietary sodium reduction plan"] else [];
    var diabetes := if "Diabetes Type 2" in p.conditions
      then ["HbA1c level check every 3 months", "Referral to diabetic education program"] else [];
    var heart := if "Heart Disease" in p.conditions
      then ["Cardiology follow-up within 2 weeks", "Echocardiogram evaluation"] else [];
    var obesity := if "Obesity" in p.conditions
      then ["Nutritional counseling referral", "Structured weight management program"] else [];
    var highRisk := if p.riskLevel == High
      then [Telehealth, "Comprehensive medication review"] else [];
    hypertension + diabetes + heart + obesity + highRisk
  }

  lemma HypertensionRule(p: Patient)
    ensures "Regular blood pressure monitoring" in SpecificRecommendations(p) <==> "Hypertension" in p.conditions
    ensures "Dietary sodium reduction plan" in SpecificRecommendations(p) <==> "Hypertension" in p.conditions
  {
  }

  lemma DiabetesRule(p: Patient)
    ensures "HbA1c level check every 3 months" in SpecificRecommendations(p) <==> "Diabetes Type 2" in p.conditions
    ensures "Referral to diabetic education program" in SpecificRecommendations(p) <==> "Diabetes Type 2" in p.conditions
  {
  }

  lemma HeartDiseaseRule(p: Patient)
    ensures "Cardiology follow-up within 2 weeks" in SpecificRecommendations(p) <==> "Heart Disease" in p.conditions
    ensures "Echocardiogram evaluation" in SpecificRecommendations(p) <==> "Heart Disease" in p.conditions
  {
  }

  lemma ObesityRule(p: Patient)
    ensures "Nutritional counseling referral" in SpecificRecommendations(p) <==> "Obesity" in p.conditions
    ensures "Structured weight management program" in SpecificRecommendations(p) <==> "Obesity" in p.conditions
  {
  }

  lemma HighRiskRule(p: Patient)
    ensures Telehealth in SpecificRecommendations(p) <==> p.riskLevel == High
    ensures "Comprehensive medication review" in SpecificRecommendations(p) <==> p.riskLevel == High
  {
  }

  /** Each piece of advice is given exactly when the rule that produces it applies: one
      condition per pair of advice, and the high risk level for the last pair. */
  lemma RecommendationsFollowRules(p: Patient)
    ensures var r := SpecificRecommendations(p);
      && ("Regular blood pressure monitoring" in r <==> "Hypertension" in p.conditions)
      && ("Dietary sodium reduction plan" in r <==> "Hypertension" in p.conditions)
      && ("HbA1c level check every 3 months" in r <==> "Diabetes Type 2" in p.conditions)
      && ("Referral to diabetic education program" in r <==> "Diabetes Type 2" in p.conditions)
      && ("Cardiology follow-up within 2 weeks" in r <==> "Heart Disease" in p.conditions)
      && ("Echocardiogram evaluation" in r <==> "Heart Disease" in p.conditions)
      && ("Nutritional counseling referral" in r <==> "Obesity" in p.conditions)
      && ("Structured weight management program" in r <==> "Obesity" in p.conditions)
      && (Telehealth in r <==> p.riskLevel == High)
      && ("Comprehensive medication review" in r <==> p.riskLevel == High)
  {
    HypertensionRule(p);
    DiabetesRule(p);
    HeartDiseaseRule(p);
    ObesityRule(p);
    HighRiskRule(p);
  }

  /** The recommendations: the specific ones, or the general pair when there are none. */
  function GetRecommendations(p: Patient): (r: seq<string>)
    ensures |r| % 2 == 0 && 2 <= |r| <= 10
    ensures Telehealth in r <==> p.riskLevel == High
    ensures forall x :: x in SpecificRecommendations(p) ==> x in r
    ensures forall x :: x in r ==> x in SpecificRecommendations(p) || x in GeneralPair
    ensures |r| == |SpecificRecommendations(p)| + (if |SpecificRecommendations(p)| == 0 then 2 else 0)
    ensures forall x :: x in GeneralPair ==> (x in r <==> |SpecificRecommendations(p)| == 0)
  {
    var specific := SpecificRecommendations(p);
    if |specific| < 2 then specific + GeneralPair else specific
  }
}

=== FILE: mock_data.dfy ===
/** The synthetic fixture behind the dashboard: the patient, alert and risk-distribution
    records, the patient and alert generators, and the per-level counts.
    Each `Math.random()` the generators call is an input `Unit` draw, each clock read is an
    input number of milliseconds, and the random-comparator shuffle is an input
    rearrangement of the condition vocabulary. */
module MockData {
  import opened Wrappers
  import opened Seqs
  import opened Text

  datatype Gender = Male | Female | Other

  datatype RiskLevel = High | Medium | Low

  /** The string the source stores for a risk level. */
  function RiskName(level: RiskLevel): string
  {
    match level
    case High => "high"
    case Medium => "medium"
    case Low => "low"
  }

  datatype AlertType = RiskIncrease | MissedAppointment | NewCondition | Medication

  /** The string the source stores for an alert type. */
  function AlertTypeTag(t: AlertType): string
  {
    match t
    case RiskIncrease => "risk-increase"
    case MissedAppointment => "missed-appointment"
    case NewCondition => "new-condition"
    case Medication => "medication"
  }

  datatype ContactInfo = ContactInfo(email: string, phone: string)

  datatype Patient = Patient(
    id: string,
    name: string,
    age: int,
    gender: Gender,
    riskLevel: RiskLevel,
    riskScore: int,
    conditions: seq<string>,
    lastCheckup: string,
    contactInfo: ContactInfo)

  /** An alert; `timestamp` is the instant in milliseconds since the epoch. */
  datatype Alert = Alert(
    id: string,
    patientId: string,
    patientName: string,
    message: string,
    timestamp: int,
    isRead: bool,
    alertType: AlertType)

  datatype RiskDistribution = RiskDistribution(high: nat, medium: nat, low: nat)

  /** A value returned by `Math.random()`. */
  type Unit = r: real | 0.0 <= r < 1.0

  lemma ScaleBelow(u: Unit, n: nat)
    requires n > 0
    ensures 0.0 <= u * n as real < n as real
  {
    assert (1.0 - u) * n as real > 0.0;
  }

  /** `Math.floor(u * n)`: a draw turned into one of `n` indexes. */
  function Pick(u: Unit, n: nat): (k: nat)
    requires n > 0
    ensures k < n
  {
    ScaleBelow(u, n);
    (u * n as real).Floor
  }

  /** Every index is produced by some draw, so no value of a range is out of reach. */
  lemma PickReaches(n: nat, k: nat)
    requires k < n
    ensures exists u: Unit :: Pick(u, n) == k
  {
    var u := k as real / n as real;
    assert u * n as real == k as real;
    assert u < 1.0;
    assert Pick(u, n) == k;
  }

  /** `new Date(x)` keeps the integral part of a time value, truncating toward zero. */
  function TruncateTime(x: real): (r: int)
    ensures x >= 0.0 ==> 0 <= r && r as real <= x < r as real + 1.0
    ensures x < 0.0 ==> r <= 0 && r as real - 1.0 < x <= r as real
  {
    if x >= 0.0 then x.Floor else -((-x).Floor)
  }

  // ---------------------------------------------------------------------------
  // Patients

  /** The fixed vocabulary patient conditions are drawn from. */
  const ConditionVocabulary: seq<string> := [
    "Hypertension",
    "Diabetes Type 2",
    "Obesity",
    "Heart Disease",
    "Asthma",
    "COPD",
    "Depression",
    "Anxiety",
    "Arthritis",
    "Chronic Kidney Disease"
  ]

  lemma VocabularyDistinct()
    ensures |ConditionVocabulary| == 10
    ensures Distinct(ConditionVocabulary)
  {
  }

  /** The inclusive score band of each risk level. */
  function ScoreBand(level: RiskLevel): (int, int)
  {
    match level
    case High => (80, 100)
    case Medium => (50, 79)
    case Low => (10, 49)
  }

  predicate ScoreInBand(level: RiskLevel, score: int)
  {
    ScoreBand(level).0 <= score <= ScoreBand(level).1
  }

  /** The level and score of one patient: a first draw below 0.25 gives high, below 0.6
      medium, otherwise low; a second draw picks the score within the level's band. */
  function AssignRisk(levelDraw: Unit, scoreDraw: Unit): (r: (RiskLevel, int))
    ensures ScoreInBand(r.0, r.1)
    ensures r.0 == High <==> levelDraw < 0.25
    ensures r.0 == Medium <==> 0.25 <= levelDraw < 0.6
    ensures r.0 == Low <==> 0.6 <= levelDraw
  {
    if levelDraw < 0.25 then (High, Pick(scoreDraw, 21) + 80)
    else if levelDraw < 0.6 then (Medium, Pick(scoreDraw, 30) + 50)
    else (Low, Pick(scoreDraw, 40) + 10)
  }

  /** Conversely, every score of every band is produced by some pair of draws. */
  lemma EveryBandScoreReachable(level: RiskLevel, score: int)
    requires ScoreInBand(level, score)
    ensures exists a: Unit, b: Unit :: AssignRisk(a, b) == (level, score)
  {
    var lo := ScoreBand(level).0;
    var width := ScoreBand(level).1 - lo + 1;
    PickReaches(width, score - lo);
    var b: Unit :| Pick(b, width) == score - lo;
    var a: Unit := match level case High => 0.0 case Medium => 0.3 case Low => 0.7;
    assert AssignRisk(a, b) == (level, score);
  }

  /** `order` rearranges the indexes 0..n-1; it stands for the result of sorting the
      vocabulary with a random comparator. */
  predicate IsShuffle(order: seq<nat>, n: nat)
  {
    && |order| == n
    && (forall k :: 0 <= k < n ==> order[k] < n)
    && Distinct(order)
  }

  /** The vocabulary in shuffled order. */
  function Shuffled(order: seq<nat>): (r: seq<string>)
    requires IsShuffle(order, |ConditionVocabulary|)
    ensures |r| == |ConditionVocabulary|
    ensures Distinct(r)
    ensures forall c :: c in r ==> c in ConditionVocabulary
  {
    VocabularyDistinct();
    seq(|order|, k requires 0 <= k < |order| => ConditionVocabulary[order[k]])
  }

  /** A patient's conditions: the first one to three entries of the shuffled vocabulary. */
  function PickConditions(countDraw: Unit, order: seq<nat>): (r: seq<string>)
    requires IsShuffle(order, |ConditionVocabulary|)
    ensures 1 <= |r| <= 3
    ensures Distinct(r)
    ensures forall c :: c in r ==> c in ConditionVocabulary
  {
    var all := Shuffled(order);
    all[..Pick(countDraw, 3) + 1]
  }

  /** The `Math.random()` results one iteration of the patient loop consumes, in call
      order, plus the already formatted checkup date. */
  datatype PatientDraws = PatientDraws(
    level: Unit,
    score: Unit,
    conditionCount: Unit,
    order: seq<nat>,
    lastCheckup: string,
    age: Unit,
    gender: Unit,
    areaCode: Unit,
    exchange: Unit,
    line: Unit)

  predicate ValidPatientDraws(d: PatientDraws)
  {
    IsShuffle(d.order, |ConditionVocabulary|)
  }

  /** The id of the `i`-th patient (1-based): "P" followed by 1000 + i. */
  function PatientId(i: nat): string
  {
    "P" + ShowNat(1000 + i)
  }

  function PatientName(i: nat): string
  {
    "Patient " + ShowNat(i)
  }

  lemma PatientIdInjective()
    ensures forall i, j :: PatientId(i) == PatientId(j) ==> i == j
  {
    forall i: nat, j: nat | PatientId(i) == PatientId(j) ensures i == j {
      assert PatientId(i)[1..] == ShowNat(1000 + i);
      assert PatientId(j)[1..] == ShowNat(1000 + j);
      ShowNatInjective(1000 + i, 1000 + j);
    }
  }

  /** What every generated patient satisfies. */
  predicate WellFormed(p: Patient)
  {
    && ScoreInBand(p.riskLevel, p.riskScore)
    && 1 <= |p.conditions| <= 3
    && Distinct(p.conditions)
    && (forall c :: c in p.conditions ==> c in ConditionVocabulary)
    && 20 <= p.age <= 79
    && p.gender != Other
  }

  /** The `i`-th patient built from one iteration's draws. */
  function MakePatient(i: nat, d: PatientDraws): (p: Patient)
    requires ValidPatientDraws(d)
    ensures WellFormed(p)
    ensures p.id == PatientId(i) && p.name == PatientName(i)
  {
    var risk := AssignRisk(d.level, d.score);
    var phone := "(" + ShowNat(Pick(d.areaCode, 900) + 100) + ") "
      + ShowNat(Pick(d.exchange, 900) + 100) + "-" + ShowNat(Pick(d.line, 9000) + 1000);
    Patient(
      id := PatientId(i),
      name := PatientName(i),
      age := Pick(d.age, 60) + 20,
      gender := if d.gender > 0.5 then Male else Female,
      riskLevel := risk.0,
      riskScore := risk.1,
      conditions := PickConditions(d.conditionCount, d.order),
      lastCheckup := d.lastCheckup,
      contactInfo := ContactInfo("patient" + ShowNat(i) + "@example.com", phone))
  }

  /** `count` patients numbered 1..count, one per element of `draws`. */
  function GenerateMockPatients(count: nat, draws: seq<PatientDraws>): (r: seq<Patient>)
    requires |draws| == count
    requires forall d :: d in draws ==> ValidPatientDraws(d)
    ensures |r| == count
    ensures forall k :: 0 <= k < count ==> r[k].id == PatientId(k + 1) && r[k].name == PatientName(k + 1)
    ensures forall p :: p in r ==> WellFormed(p)
    ensures forall j, k :: 0 <= j < k < |r| ==> r[j].id != r[k].id
  {
    PatientIdInjective();
    seq(count, k requires 0 <= k < count => MakePatient(k + 1, draws[k]))
  }

  // ---------------------------------------------------------------------------
  // Risk distribution

  function AtLevel(level: RiskLevel): Patient -> bool
  {
    (p: Patient) => p.riskLevel == level
  }

  lemma {:induction false} LevelCountsSum(ps: seq<Patient>)
    ensures |Filter(AtLevel(High), ps)| + |Filter(AtLevel(Medium), ps)| + |Filter(AtLevel(Low), ps)| == |ps|
  {
    if |ps| > 0 {
      LevelCountsSum(ps[1..]);
    }
  }

  /** Filtering by a level keeps as many patients as there are positions holding a patient
      at that level. */
  lemma LevelCount(ps: seq<Patient>, level: RiskLevel)
    ensures |Filter(AtLevel(level), ps)| == |set k | 0 <= k < |ps| && ps[k].riskLevel == level|
  {
    FilterLengthIsPositionCount(AtLevel(level), ps, set k | 0 <= k < |ps| && ps[k].riskLevel == level);
  }

  /** The number of patients at each level. */
  function GetRiskDistribution(ps: seq<Patient>): (d: RiskDistribution)
    ensures d.high == |set k | 0 <= k < |ps| && ps[k].riskLevel == High|
    ensures d.medium == |set k | 0 <= k < |ps| && ps[k].riskLevel == Medium|
    ensures d.low == |set k | 0 <= k < |ps| && ps[k].riskLevel == Low|
    ensures d.high + d.medium + d.low == |ps|
    ensures d.high == 0 <==> forall p :: p in ps ==> p.riskLevel != High
    ensures d.medium == 0 <==> forall p :: p in ps ==> p.riskLevel != Medium
    ensures d.low == 0 <==> forall p :: p in ps ==> p.riskLevel != Low
  {
    LevelCountsSum(ps);
    LevelCount(ps, High);
    LevelCount(ps, Medium);
    LevelCount(ps, Low);
    var high := Filter(AtLevel(High), ps);
    var medium := Filter(AtLevel(Medium), ps);
    var low := Filter(AtLevel(Low), ps);
    assert |high| > 0 ==> high[0] in high;
    assert |medium| > 0 ==> medium[0] in medium;
    assert |low| > 0 ==> low[0] in low;
    RiskDistribution(|high|, |medium|, |low|)
  }

  // ---------------------------------------------------------------------------
  // Alerts

  const AlertTypes: seq<AlertType> := [RiskIncrease, MissedAppointment, NewCondition, Medication]

  /** The alert type a message text announces, if any. */
  function MessageType(m: string): Option<AlertType>
  {
    if m == "Risk score increased significantly" then Some(RiskIncrease)
    else if m == "Missed scheduled follow-up appointment" then Some(MissedAppointment)
    else if m == "New condition detected in recent test results" then Some(NewCondition)
    else if m == "Prescription refill needed within 7 days" then Some(Medication)
    else None
  }

  /** The fixed message of each alert type; reading the message back gives the type. */
  function AlertMessage(t: AlertType): (m: string)
    ensures MessageType(m) == Some(t)
  {
    match t
    case RiskIncrease => "Risk score increased significantly"
    case MissedAppointment => "Missed scheduled follow-up appointment"
    case NewCondition => "New condition detected in recent test results"
    case Medication => "Prescription refill needed within 7 days"
  }

  /** The message determines the type. */
  lemma AlertMessageInjective(t: AlertType, u: AlertType)
    ensures AlertMessage(t) == AlertMessage(u) ==> t == u
  {
  }

  const TwoDaysMs: int := 48 * 60 * 60 * 1000

  /** The `Math.random()` results one iteration of the alert loop consumes, in call order,
      and the clock reading `now` (milliseconds) taken in that iteration. */
  datatype AlertDraws = AlertDraws(patient: Unit, alertType: Unit, now: int, time: Unit, read: Unit)

  /** The first five medium-risk patients, in input order. */
  function FirstMedium(ps: seq<Patient>): (r: seq<Patient>)
    ensures r <= Filter(AtLevel(Medium), ps)
    ensures |r| == if |Filter(AtLevel(Medium), ps)| < 5 then |Filter(AtLevel(Medium), ps)| else 5
    ensures forall p :: p in r ==> p in ps && p.riskLevel == Medium
  {
    var medium := Filter(AtLevel(Medium), ps);
    assert forall p :: p in medium ==> p in ps && AtLevel(Medium)(p);
    var r := if |medium| <= 5 then medium else medium[..5];
    assert forall p :: p in r ==> p in medium;
    r
  }

  /** The patients alerts are drawn from: every high-risk patient, then the first five
      medium-risk ones. */
  function AlertPool(ps: seq<Patient>): (pool: seq<Patient>)
    ensures forall p :: p in pool <==> p in ps && (p.riskLevel == High || p in FirstMedium(ps))
    ensures |pool| == 0 <==> forall p :: p in ps ==> p.riskLevel == Low
  {
    var high := Filter(AtLevel(High), ps);
    var medium := Filter(AtLevel(Medium), ps);
    assert |medium| > 0 ==> medium[0] in FirstMedium(ps);
    high + FirstMedium(ps)
  }

  /** The id of the `i`-th alert (1-based): "A" followed by 1000 + i. */
  function AlertId(i: nat): string
  {
    "A" + ShowNat(1000 + i)
  }

  lemma AlertIdInjective()
    ensures forall i, j :: AlertId(i) == AlertId(j) ==> i == j
  {
    forall i: nat, j: nat | AlertId(i) == AlertId(j) ensures i == j {
      assert AlertId(i)[1..] == ShowNat(1000 + i);
      assert AlertId(j)[1..] == ShowNat(1000 + j);
      ShowNatInjective(1000 + i, 1000 + j);
    }
  }

  /** The `i`-th alert before sorting: a pool patient, a type with its message, and an
      instant in the 48 hours before that iteration's clock reading. */
  function MakeAlert(i: nat, pool: seq<Patient>, d: AlertDraws): (a: Alert)
    requires |pool| > 0
    ensures a.id == AlertId(i)
    ensures exists p :: p in pool && a.patientId == p.id && a.patientName == p.name
    ensures a.message == AlertMessage(a.alertType)
    ensures d.now - TwoDaysMs <= a.timestamp <= d.now
  {
    var p := pool[Pick(d.patient, |pool|)];
    var t := AlertTypes[Pick(d.alertType, |AlertTypes|)];
    ScaleBelow(d.time, TwoDaysMs);
    var instant := TruncateTime((d.now - TwoDaysMs) as real + d.time * TwoDaysMs as real);
    Alert(AlertId(i), p.id, p.name, AlertMessage(t), instant, d.read > 0.7, t)
  }

  /** Newest first: timestamps never increase along the list. */
  predicate NewestFirst(s: seq<Alert>)
  {
    forall j, k :: 0 <= j < k < |s| ==> s[j].timestamp >= s[k].timestamp
  }

  function AlertIds(s: seq<Alert>): (ids: seq<string>)
    ensures |ids| == |s|
    decreases |s|
  {
    if |s| == 0 then [] else [s[0].id] + AlertIds(s[1..])
  }

  /** The id list holds, position by position, the alerts' ids. */
  lemma {:induction false} AlertIdsAt(s: seq<Alert>)
    ensures |AlertIds(s)| == |s|
    ensures forall k :: 0 <= k < |s| ==> AlertIds(s)[k] == s[k].id
    decreases |s|
  {
    if |s| > 0 {
      AlertIdsAt(s[1..]);
      forall k | 0 < k < |s| ensures AlertIds(s)[k] == s[k].id {
        assert AlertIds(s)[k] == AlertIds(s[1..])[k - 1];
      }
    }
  }

  lemma AlertIdsCons(a: Alert, s: seq<Alert>)
    ensures AlertIds([a] + s) == [a.id] + AlertIds(s)
    ensures multiset(AlertIds([a] + s)) == multiset{a.id} + multiset(AlertIds(s))
  {
    assert ([a] + s)[1..] == s;
  }

  /** Places `a` before the first alert that is not newer than it. */
  function InsertNewestFirst(a: Alert, s: seq<Alert>): (r: seq<Alert>)
    requires NewestFirst(s)
    ensures NewestFirst(r)
    ensures multiset(r) == multiset(s) + multiset{a}
    decreases |s|
  {
    if |s| == 0 || s[0].timestamp <= a.timestamp then
      [a] + s
    else
      var rest := InsertNewestFirst(a, s[1..]);
      assert s == [s[0]] + s[1..];
      NewerThanAll(s[0], s[1..], a, rest);
      [s[0]] + rest
  }

  /** An alert at least as new as every element of `s` and as `a` is at least as new as
      every element of a rearrangement of `s` plus `a`. */
  lemma NewerThanAll(first: Alert, s: seq<Alert>, a: Alert, rest: seq<Alert>)
    requires forall k :: 0 <= k < |s| ==> first.timestamp >= s[k].timestamp
    requires first.timestamp >= a.timestamp
    requires multiset(rest) == multiset(s) + multiset{a}
    requires NewestFirst(rest)
    ensures NewestFirst([first] + rest)
  {
    forall k | 0 <= k < |rest| ensures first.timestamp >= rest[k].timestamp {
      assert rest[k] in multiset(rest);
      if rest[k] != a {
        assert rest[k] in multiset(s);
        var j :| 0 <= j < |s| && s[j] == rest[k];
      }
    }
  }

  /** The alerts that carry timestamp `t`. */
  function AtTime(t: int): Alert -> bool
  {
    (a: Alert) => a.timestamp == t
  }

  /** Inserting `a` keeps the alerts of every timestamp in their order, with `a` ahead of
      the alerts that share its timestamp. */
  lemma {:induction false} InsertNewestFirstStable(a: Alert, s: seq<Alert>, t: int)
    requires NewestFirst(s)
    ensures Filter(AtTime(t), InsertNewestFirst(a, s))
         == (if a.timestamp == t then [a] else []) + Filter(AtTime(t), s)
    decreases |s|
  {
    if |s| == 0 || s[0].timestamp <= a.timestamp {
      FilterCons(AtTime(t), a, s);
    } else {
      InsertPastNewer(a, s);
      var rest := InsertNewestFirst(a, s[1..]);
      InsertNewestFirstStable(a, s[1..], t);
      PassNewerAlert(s[0], a, s[1..], rest, t);
    }
  }

  /** An alert older than the head of the list is inserted into the tail. */
  lemma InsertPastNewer(a: Alert, s: seq<Alert>)
    requires NewestFirst(s)
    requires |s| > 0 && s[0].timestamp > a.timestamp
    ensures NewestFirst(s[1..])
    ensures InsertNewestFirst(a, s) == [s[0]] + InsertNewestFirst(a, s[1..])
  {
  }

  /** Putting an alert strictly newer than `a` in front of both lists keeps the relation
      between their timestamp-`t` parts. */
  lemma PassNewerAlert(first: Alert, a: Alert, s: seq<Alert>, rest: seq<Alert>, t: int)
    requires first.timestamp > a.timestamp
    requires Filter(AtTime(t), rest) == (if a.timestamp == t then [a] else []) + Filter(AtTime(t), s)
    ensures Filter(AtTime(t), [first] + rest)
         == (if a.timestamp == t then [a] else []) + Filter(AtTime(t), [first] + s)
  {
    FilterCons(AtTime(t), first, rest);
    FilterCons(AtTime(t), first, s);
  }

  /** The sort is stable: the alerts of any one timestamp keep their input order. */
  lemma {:induction false} SortNewestFirstStable(s: seq<Alert>, t: int)
    ensures Filter(AtTime(t), SortNewestFirst(s)) == Filter(AtTime(t), s)
    decreases |s|
  {
    if |s| > 0 {
      assert s == [s[0]] + s[1..];
      SortNewestFirstStable(s[1..], t);
      InsertNewestFirstStable(s[0], SortNewestFirst(s[1..]), t);
      FilterCons(AtTime(t), s[0], s[1..]);
    }
  }

  /** The stable sort by timestamp, newest first, that `Array.prototype.sort` performs with
      the comparator `b - a`. */
  function SortNewestFirst(s: seq<Alert>): (r: seq<Alert>)
    ensures NewestFirst(r)
    ensures multiset(r) == multiset(s)
    decreases |s|
  {
    if |s| == 0 then []
    else
      assert s == [s[0]] + s[1..];
      InsertNewestFirst(s[0], SortNewestFirst(s[1..]))
  }

  /** The ids of a concatenation are the concatenated ids. */
  lemma {:induction false} AlertIdsAppend(x: seq<Alert>, y: seq<Alert>)
    ensures AlertIds(x + y) == AlertIds(x) + AlertIds(y)
    decreases |x|
  {
    if |x| == 0 {
      assert x + y == y;
    } else {
      assert (x + y)[1..] == x[1..] + y;
      AlertIdsAppend(x[1..], y);
    }
  }

  /** Taking the alert at `i` out of a list takes exactly its id out of the ids. */
  lemma AlertIdsRemoveAt(t: seq<Alert>, i: nat)
    requires i < |t|
    ensures multiset(AlertIds(t)) == multiset{t[i].id} + multiset(AlertIds(t[..i] + t[i + 1..]))
  {
    var before, after := t[..i], t[i + 1..];
    SplitAt(t, i);
    AlertIdsAppend(before, [t[i]] + after);
    AlertIdsCons(t[i], after);
    AlertIdsAppend(before, after);
    var x, y := AlertIds(before), AlertIds(after);
    assert AlertIds(t) == x + ([t[i].id] + y);
    assert AlertIds(before + after) == x + y;
    assert multiset(x + ([t[i].id] + y)) == multiset(x) + multiset{t[i].id} + multiset(y);
    assert multiset(x + y) == multiset(x) + multiset(y);
  }

  /** The ids of a list depend only on which alerts it holds, not on their order:
      rearranging the alerts (as sorting does) neither loses nor duplicates an id. */
  lemma {:induction false} AlertIdsOfPermutation(s: seq<Alert>, t: seq<Alert>)
    requires multiset(s) == multiset(t)
    ensures multiset(AlertIds(s)) == multiset(AlertIds(t))
    decreases |s|
  {
    if |s| == 0 {
      assert |t| == |multiset(t)| == 0;
    } else {
      assert s[0] in multiset(s);
      var i :| 0 <= i < |t| && t[i] == s[0];
      RemoveAt(t, i);
      assert s == [s[0]] + s[1..];
      assert multiset(s[1..]) == multiset(s) - multiset{s[0]};
      AlertIdsOfPermutation(s[1..], t[..i] + t[i + 1..]);
      AlertIdsRemoveAt(t, i);
      AlertIdsCons(s[0], s[1..]);
    }
  }

  /** The alert names a patient of `pool` and copies its id and name. */
  ghost predicate FromPool(a: Alert, pool: seq<Patient>)
  {
    exists p :: p in pool && a.patientId == p.id && a.patientName == p.name
  }

  /** The alert's instant lies in the 48 hours before the clock reading of the iteration
      that numbered it: the alert `AlertId(k + 1)` belongs to `draws[k]`. */
  predicate InOwnWindow(a: Alert, draws: seq<AlertDraws>)
  {
    forall k :: 0 <= k < |draws| && a.id == AlertId(k + 1) ==>
      draws[k].now - TwoDaysMs <= a.timestamp <= draws[k].now
  }

  /** When the alert at each position carries that position's id and lies in that
      position's window, every alert lies in the window of the iteration its id names. */
  lemma OwnWindows(built: seq<Alert>, draws: seq<AlertDraws>)
    requires |built| == |draws|
    requires forall k :: 0 <= k < |draws| ==>
      built[k].id == AlertId(k + 1) && draws[k].now - TwoDaysMs <= built[k].timestamp <= draws[k].now
    ensures forall a :: a in built ==> InOwnWindow(a, draws)
  {
    AlertIdInjective();
    forall a | a in built ensures InOwnWindow(a, draws) {
      var j :| 0 <= j < |built| && built[j] == a;
      forall k | 0 <= k < |draws| && a.id == AlertId(k + 1)
        ensures draws[k].now - TwoDaysMs <= a.timestamp <= draws[k].now
      {
        assert AlertId(j + 1) == AlertId(k + 1);
      }
    }
  }

  /** What each iteration's `MakeAlert` promises, collected over the whole list. */
  lemma MadeAlerts(pool: seq<Patient>, draws: seq<AlertDraws>, built: seq<Alert>)
    requires |draws| > 0 ==> |pool| > 0
    requires |built| == |draws|
    requires forall k :: 0 <= k < |draws| ==> built[k] == MakeAlert(k + 1, pool, draws[k])
    ensures forall k :: 0 <= k < |draws| ==>
      built[k].id == AlertId(k + 1) && draws[k].now - TwoDaysMs <= built[k].timestamp <= draws[k].now
    ensures forall a :: a in built ==> a.message == AlertMessage(a.alertType) && FromPool(a, pool)
  {
    forall a | a in built ensures a.message == AlertMessage(a.alertType) && FromPool(a, pool) {
      var k :| 0 <= k < |built| && built[k] == a;
      assert a == MakeAlert(k + 1, pool, draws[k]);
    }
  }

  /** The unsorted alerts of the generator loop. */
  function BuildAlerts(pool: seq<Patient>, draws: seq<AlertDraws>): (built: seq<Alert>)
    requires |draws| > 0 ==> |pool| > 0
    ensures |built| == |draws|
    ensures AlertIds(built) == seq(|draws|, k requires 0 <= k < |draws| => AlertId(k + 1))
    ensures forall a :: a in built ==> a.message == AlertMessage(a.alertType)
    ensures forall k :: 0 <= k < |draws| ==>
      built[k].id == AlertId(k + 1) && draws[k].now - TwoDaysMs <= built[k].timestamp <= draws[k].now
    ensures forall a :: a in built ==> FromPool(a, pool) && InOwnWindow(a, draws)
  {
    var built := seq(|draws|, k requires 0 <= k < |draws| => MakeAlert(k + 1, pool, draws[k]));
    BuiltAlerts(pool, draws, built);
    built
  }

  /** Everything `BuildAlerts` promises, for any list whose alert at `k` is the one
      iteration `k + 1` makes. */
  lemma BuiltAlerts(pool: seq<Patient>, draws: seq<AlertDraws>, built: seq<Alert>)
    requires |draws| > 0 ==> |pool| > 0
    requires |built| == |draws|
    requires forall k :: 0 <= k < |draws| ==> built[k] == MakeAlert(k + 1, pool, draws[k])
    ensures AlertIds(built) == seq(|draws|, k requires 0 <= k < |draws| => AlertId(k + 1))
    ensures forall a :: a in built ==> a.message == AlertMessage(a.alertType)
    ensures forall k :: 0 <= k < |draws| ==>
      built[k].id == AlertId(k + 1) && draws[k].now - TwoDaysMs <= built[k].timestamp <= draws[k].now
    ensures forall a :: a in built ==> FromPool(a, pool) && InOwnWindow(a, draws)
  {
    MadeAlerts(pool, draws, built);
    AlertIdsAt(built);
    NumberedFromOne(AlertIds(built), AlertId);
    OwnWindows(built, draws);
  }

  /** `count` alerts drawn from the pool of `ps`, numbered 1..count, sorted newest first.
      With `count` at least one the pool must be non-empty: the source reads a field of
      `undefined` otherwise. */
  function GenerateMockAlerts(ps: seq<Patient>, count: nat, draws: seq<AlertDraws>): (r: seq<Alert>)
    requires |draws| == count
    requires count > 0 ==> |AlertPool(ps)| > 0
    ensures |r| == count
    ensures NewestFirst(r)
    ensures multiset(AlertIds(r)) == multiset(seq(count, k requires 0 <= k < count => AlertId(k + 1)))
    ensures forall a :: a in r ==> a.message == AlertMessage(a.alertType)
    ensures forall a :: a in r ==> FromPool(a, AlertPool(ps)) && InOwnWindow(a, draws)
  {
    var built := BuildAlerts(AlertPool(ps), draws);
    var r := SortNewestFirst(built);
    AlertIdsOfPermutation(r, built);
    assert forall a :: a in r ==> a in multiset(built);
    r
  }

  /** Every generated alert is about a high-risk patient or one of the first five
      medium-risk patients, and copies that patient's id and name. */
  lemma GeneratedAlertSubjects(ps: seq<Patient>, count: nat, draws: seq<AlertDraws>)
    requires |draws| == count
    requires count > 0 ==> |AlertPool(ps)| > 0
    ensures forall a :: a in GenerateMockAlerts(ps, count, draws) ==>
      (exists p :: p in ps && (p.riskLevel == High || p in FirstMedium(ps))
                     && a.patientId == p.id && a.patientName == p.name)
  {
    forall a | a in GenerateMockAlerts(ps, count, draws)
      ensures (exists p :: p in ps && (p.riskLevel == High || p in FirstMedium(ps))
                     && a.patientId == p.id && a.patientName == p.name)
    {
      assert FromPool(a, AlertPool(ps));
    }
  }
}

=== FILE: otp_verification.dfy ===
/** The one-time-password screen: the six-character guard on verification, the masked
    phone number, and the resend countdown as discrete one-second ticks. */
module Otp {
  import opened Wrappers
  import opened Text

  const OtpLength := 6
  const ResendDelay := 30

  /** `handleVerify`: the code and phone passed on for verification, or nothing when the
      code does not have exactly six characters. */
  function HandleVerify(otp: string, phone: string): (r: Option<(string, string)>)
    ensures r.Some? <==> |otp| == OtpLength
    ensures r.Some? ==> r.value == (otp, phone)
  {
    if |otp| != OtpLength then None else Some((otp, phone))
  }

  predicate AllDigits(s: string)
  {
    forall i :: 0 <= i < |s| ==> IsDigit(s[i])
  }

  /** `s.slice(-10)`: the last ten characters, or all of a shorter string. */
  function LastTen(s: string): (r: string)
    ensures |r| == if |s| < 10 then |s| else 10
    ensures r == s[|s| - |r|..]
  {
    if |s| < 10 then s else s[|s| - 10..]
  }

  /** `s.replace(/(\d{6})(\d{4})/, 'XXXXXX$2')`: the leftmost run of ten ASCII digits has
      its first six replaced by 'X'; without such a run the string is unchanged. */
  function MaskFirstDigitRun(s: string): (r: string)
    ensures |r| == |s|
    decreases |s|
  {
    if |s| < 10 then s
    else if AllDigits(s[..10]) then "XXXXXX" + s[6..10] + s[10..]
    else [s[0]] + MaskFirstDigitRun(s[1..])
  }

  /** On at most ten characters the pattern can only match the whole string. */
  lemma MaskShortString(s: string)
    requires |s| <= 10
    ensures |s| == 10 && AllDigits(s) ==> MaskFirstDigitRun(s) == "XXXXXX" + s[6..]
    ensures !(|s| == 10 && AllDigits(s)) ==> MaskFirstDigitRun(s) == s
  {
    if |s| == 10 {
      assert s[..10] == s;
      if !AllDigits(s) {
        assert MaskFirstDigitRun(s[1..]) == s[1..];
        assert s == [s[0]] + s[1..];
      }
    }
  }

  /** The phone number shown on the screen. */
  function FormatPhoneNumber(phone: string): (r: string)
    ensures |r| == |LastTen(phone)|
    ensures |phone| >= 10 && AllDigits(LastTen(phone)) ==> r == "XXXXXX" + phone[|phone| - 4..]
    ensures !(|phone| >= 10 && AllDigits(LastTen(phone))) ==> r == LastTen(phone)
  {
    MaskShortString(LastTen(phone));
    MaskFirstDigitRun(LastTen(phone))
  }

  /** The last four characters of the number are always shown as they are, and a masked
      number shows no digit before them. */
  lemma FormatPhoneShowsOnlyLastFour(phone: string)
    requires |phone| >= 4
    ensures var r := FormatPhoneNumber(phone); r[|r| - 4..] == phone[|phone| - 4..]
    ensures var r := FormatPhoneNumber(phone);
      |phone| >= 10 && AllDigits(LastTen(phone)) ==> forall i :: 0 <= i < 6 ==> !IsDigit(r[i])
  {
    var t := LastTen(phone);
    assert t[|t| - 4..] == phone[|phone| - 4..];
  }

  // ---------------------------------------------------------------------------
  // Resend countdown

  /** One second of the countdown: it decreases while positive and otherwise stays. */
  function Tick(countdown: int): (r: int)
    ensures countdown > 0 ==> r == countdown - 1
    ensures countdown <= 0 ==> r == countdown
  {
    if countdown > 0 then countdown - 1 else countdown
  }

  /** The countdown after `n` seconds. */
  function Ticks(countdown: int, n: nat): int
    decreases n
  {
    if n == 0 then countdown else Ticks(Tick(countdown), n - 1)
  }

  /** A countdown that starts at `c >= 0` reads `max(c - n, 0)` after `n` seconds: it never
      goes below zero. */
  lemma {:induction false} TicksStopAtZero(c: nat, n: nat)
    ensures Ticks(c, n) == if n >= c then 0 else c - n
    decreases n
  {
    if n > 0 {
      TicksStopAtZero(Tick(c), n - 1);
    }
  }

  /** The resend link replaces the waiting message once the countdown is no longer
      positive. */
  predicate ResendOffered(countdown: int)
  {
    !(countdown > 0)
  }

  /** From the initial countdown, resend is offered after exactly thirty seconds. */
  lemma ResendOfferedAfterThirtySeconds(n: nat)
    ensures ResendOffered(Ticks(ResendDelay, n)) <==> n >= 30
  {
    TicksStopAtZero(ResendDelay, n);
  }

  /** `handleResendOtp` as the source writes it: the context it reads provides no
      `resendOtp`, so the awaited call throws before the countdown is reset. */
  function HandleResendOtpAsWritten(countdown: int): (r: int)
    ensures ResendOffered(countdown) ==> ResendOffered(r)
  {
    countdown
  }

  /** As written, once resend is offered it stays offered: the countdown never restarts. */
  lemma ResendAsWrittenNeverRestarts(n: nat)
    ensures ResendOffered(Ticks(HandleResendOtpAsWritten(0), n))
  {
    TicksStopAtZero(HandleResendOtpAsWritten(0), n);
  }

  /** `handleResendOtp` with the evident intent: after the resend the countdown restarts
      at thirty seconds. */
  function HandleResendOtp(countdown: int): (r: int)
    ensures !ResendOffered(r)
    ensures r == ResendDelay
  {
    ResendDelay
  }

  /** After a resend the link is hidden for exactly thirty seconds. */
  lemma ResendWaitsThirtySeconds(countdown: int, n: nat)
    ensures ResendOffered(Ticks(HandleResendOtp(countdown), n)) <==> n >= 30
  {
    TicksStopAtZero(HandleResendOtp(countdown), n);
  }
}

=== FILE: patient_list.dfy ===
/** The patient list's filter: a stable filter of the fixture that keeps a patient when
    the text query, the risk-level selection, the age range, the condition selection and
    the active tab all accept it; and the high-risk badge count. */
module PatientList {
  import opened Wrappers
  import opened Seqs
  import opened Text
  import opened MockData
  import opened SearchBar

  /** The text query: empty passes; otherwise the lower-cased query must be included in the
      lower-cased name, the lower-cased id, or some lower-cased condition. */
  function MatchesQuery(p: Patient, query: string): bool
  {
    var q := Lower(query);
    || query == ""
    || Includes(Lower(p.name), q)
    || Includes(Lower(p.id), q)
    || exists c :: c in p.conditions && Includes(Lower(c), q)
  }

  /** The risk-level selection: empty passes; otherwise the level's name must be selected. */
  function MatchesRisk(p: Patient, f: PatientFilters): bool
  {
    |f.riskLevel| == 0 || RiskName(p.riskLevel) in f.riskLevel
  }

  /** The age range: none passes; otherwise the age must be neither below nor above it. */
  function MatchesAge(p: Patient, f: PatientFilters): bool
  {
    f.ageRange.None? || !(p.age < f.ageRange.value.lo || p.age > f.ageRange.value.hi)
  }

  /** The condition selection: empty passes; otherwise some selected condition must be
      included (case-insensitively) in some condition of the patient. */
  function MatchesConditions(p: Patient, f: PatientFilters): bool
  {
    || |f.conditions| == 0
    || exists sel :: sel in f.conditions &&
         exists pc :: pc in p.conditions && Includes(Lower(pc), Lower(sel))
  }

  /** The tab: "high-risk" admits only high-risk patients, any other tab admits all. */
  function MatchesTab(p: Patient, tab: string): bool
  {
    !(tab == "high-risk" && p.riskLevel != High)
  }

  function Keeps(query: string, f: PatientFilters, tab: string): Patient -> bool
  {
    (p: Patient) =>
      MatchesQuery(p, query) && MatchesRisk(p, f) && MatchesAge(p, f)
      && MatchesConditions(p, f) && MatchesTab(p, tab)
  }

  /** The patients shown for a query, a filter record and a tab, in fixture order. */
  function FilteredPatients(ps: seq<Patient>, query: string, f: PatientFilters, tab: string): (r: seq<Patient>)
    ensures IsSubsequence(r, ps)
    ensures forall p :: multiset(r)[p] == if Keeps(query, f, tab)(p) then multiset(ps)[p] else 0
  {
    FilterIsSubsequence(Keeps(query, f, tab), ps);
    FilterCount(Keeps(query, f, tab), ps);
    Filter(Keeps(query, f, tab), ps)
  }

  // ---------------------------------------------------------------------------
  // Reference definition of the selection, stated with positional substrings

  ghost predicate Contains(hay: string, needle: string)
  {
    exists i :: OccursAt(needle, hay, i)
  }

  /** A patient is selected when every one of the five criteria accepts it. */
  ghost predicate Selected(p: Patient, query: string, f: PatientFilters, tab: string)
  {
    && (|query| > 0 ==>
          || Contains(Lower(p.name), Lower(query))
          || Contains(Lower(p.id), Lower(query))
          || exists c :: c in p.conditions && Contains(Lower(c), Lower(query)))
    && (|f.riskLevel| > 0 ==> RiskName(p.riskLevel) in f.riskLevel)
    && (f.ageRange.Some? ==> f.ageRange.value.lo <= p.age <= f.ageRange.value.hi)
    && (|f.conditions| > 0 ==>
          exists sel, pc :: sel in f.conditions && pc in p.conditions && Contains(Lower(pc), Lower(sel)))
    && (tab == "high-risk" ==> p.riskLevel == High)
  }

  lemma KeepsIffSelected(p: Patient, query: string, f: PatientFilters, tab: string)
    ensures Keeps(query, f, tab)(p) <==> Selected(p, query, f, tab)
  {
    IncludesIffOccurs(Lower(p.name), Lower(query));
    IncludesIffOccurs(Lower(p.id), Lower(query));
    forall c | c in p.conditions {
      IncludesIffOccurs(Lower(c), Lower(query));
    }
    forall sel, pc | sel in f.conditions && pc in p.conditions {
      IncludesIffOccurs(Lower(pc), Lower(sel));
    }
  }

  /** The filter keeps exactly the selected patients of the fixture. */
  lemma FilteredPatientsSelects(ps: seq<Patient>, query: string, f: PatientFilters, tab: string)
    ensures forall p :: p in FilteredPatients(ps, query, f, tab) <==> p in ps && Selected(p, query, f, tab)
  {
    forall p | p in ps {
      KeepsIffSelected(p, query, f, tab);
    }
  }

  /** With no query, no filters and the "all" tab, the list is the fixture itself. */
  lemma NoFiltersShowsEverything(ps: seq<Patient>)
    ensures FilteredPatients(ps, "", NoFilters, "all") == ps
  {
    FilterKeepsAll(Keeps("", NoFilters, "all"), ps);
  }

  /** An age range whose lower bound exceeds its upper bound shows nobody. */
  lemma InvertedAgeRangeShowsNobody(ps: seq<Patient>, query: string, f: PatientFilters, tab: string)
    requires f.ageRange.Some? && f.ageRange.value.lo > f.ageRange.value.hi
    ensures FilteredPatients(ps, query, f, tab) == []
  {
    FilterDropsAll(Keeps(query, f, tab), ps);
  }

  /** Condition matching is substring matching, and it is one-directional: selecting
      "Diabetes" keeps a "Diabetes Type 2" patient, while selecting "Diabetes Type 2" does
      not keep a patient whose only condition is "Diabetes". */
  lemma ConditionMatchIsOneWay(p: Patient, f: PatientFilters)
    ensures p.conditions == ["Diabetes Type 2"] && f.conditions == ["Diabetes"] ==> MatchesConditions(p, f)
    ensures p.conditions == ["Diabetes"] && f.conditions == ["Diabetes Type 2"] ==> !MatchesConditions(p, f)
  {
    if p.conditions == ["Diabetes Type 2"] && f.conditions == ["Diabetes"] {
      assert Lower("Diabetes Type 2")[..|Lower("Diabetes")|] == Lower("Diabetes");
      assert Includes(Lower("Diabetes Type 2"), Lower("Diabetes"));
      assert "Diabetes" in f.conditions && "Diabetes Type 2" in p.conditions;
    }
  }

  /** The high-risk tab shows the high-risk part of what the "all" tab shows. */
  lemma HighRiskTabRefinesAll(ps: seq<Patient>, query: string, f: PatientFilters)
    ensures FilteredPatients(ps, query, f, "high-risk")
         == Filter(AtLevel(High), FilteredPatients(ps, query, f, "all"))
    ensures IsSubsequence(FilteredPatients(ps, query, f, "high-risk"), FilteredPatients(ps, query, f, "all"))
    ensures forall p :: p in FilteredPatients(ps, query, f, "high-risk") ==> p.riskLevel == High
  {
    FilterConjunction(Keeps(query, f, "high-risk"), Keeps(query, f, "all"), AtLevel(High), ps);
    FilterIsSubsequence(AtLevel(High), FilteredPatients(ps, query, f, "all"));
  }

  /** The count on the high-risk tab: the high-risk patients of the unfiltered fixture. */
  function HighRiskCount(ps: seq<Patient>): (n: nat)
    ensures n == |set k | 0 <= k < |ps| && ps[k].riskLevel == High|
    ensures n == GetRiskDistribution(ps).high
    ensures n <= |ps|
  {
    LevelCount(ps, High);
    |Filter(AtLevel(High), ps)|
  }

  /** Whatever the query and filters, the high-risk tab never lists more patients than its
      badge counts. */
  lemma HighRiskTabWithinBadge(ps: seq<Patient>, query: string, f: PatientFilters)
    ensures |FilteredPatients(ps, query, f, "high-risk")| <= HighRiskCount(ps)
  {
    FilterConjunction(Keeps(query, f, "high-risk"), AtLevel(High), Keeps(query, f, "all"), ps);
  }
}

=== FILE: patient_search_bar.dfy ===
/** The filter record the search bar edits, and its handlers: toggling a risk level or a
    condition, choosing an age preset, clearing, and the "active filters" badge. */
module SearchBar {
  import opened Wrappers
  import opened Seqs
  import opened Text

  /** An inclusive `[lo, hi]` age bound (a `[number, number]` pair in the source). */
  datatype AgeRange = AgeRange(lo: int, hi: int)

  datatype PatientFilters = PatientFilters(
    riskLevel: seq<string>,
    ageRange: Option<AgeRange>,
    conditions: seq<string>)

  /** The initial and cleared filter record. */
  const NoFilters := PatientFilters([], None, [])

  /** Removes `x` when present (every occurrence), appends it when absent. */
  function Toggle(xs: seq<string>, x: string): (r: seq<string>)
    ensures x in r <==> x !in xs
    ensures forall y :: y != x ==> (y in r <==> y in xs)
    ensures Distinct(xs) ==> Distinct(r)
  {
    if x in xs then
      var kept := Filter((y: string) => y != x, xs);
      FilterIsSubsequence((y: string) => y != x, xs);
      SubsequenceKeepsDistinct(kept, xs);
      kept
    else xs + [x]
  }

  /** Toggling an absent value twice gives back the original list. */
  lemma ToggleTwiceRestores(xs: seq<string>, x: string)
    requires x !in xs
    ensures Toggle(Toggle(xs, x), x) == xs
  {
    var notX := (y: string) => y != x;
    FilterAppend(notX, xs, [x]);
    FilterKeepsAll(notX, xs);
    assert Filter(notX, [x]) == [];
  }

  /** The risk-level button: flips membership of `level`, leaves the other fields. */
  function HandleRiskLevelChange(f: PatientFilters, level: string): (r: PatientFilters)
    ensures level in r.riskLevel <==> level !in f.riskLevel
    ensures forall l :: l != level ==> (l in r.riskLevel <==> l in f.riskLevel)
    ensures r.ageRange == f.ageRange && r.conditions == f.conditions
  {
    f.(riskLevel := Toggle(f.riskLevel, level))
  }

  /** The condition button: flips membership of `condition`, leaves the other fields. */
  function HandleConditionChange(f: PatientFilters, condition: string): (r: PatientFilters)
    ensures condition in r.conditions <==> condition !in f.conditions
    ensures forall c :: c != condition ==> (c in r.conditions <==> c in f.conditions)
    ensures r.riskLevel == f.riskLevel && r.ageRange == f.ageRange
  {
    f.(conditions := Toggle(f.conditions, condition))
  }

  /** The preset values the age selector offers besides "all". */
  const AgePresetNames: seq<string> := ["18-30", "31-50", "51-70", "71+"]

  /** The age range of a preset; any other value, "all" included, clears the range. */
  function AgePreset(range: string): (r: Option<AgeRange>)
    ensures r.Some? <==> range in AgePresetNames
    ensures r.Some? ==> 18 <= r.value.lo <= r.value.hi <= 120
  {
    match range
    case "18-30" => Some(AgeRange(18, 30))
    case "31-50" => Some(AgeRange(31, 50))
    case "51-70" => Some(AgeRange(51, 70))
    case "71+" => Some(AgeRange(71, 120))
    case _ => None
  }

  /** Each preset name spells its own bounds: "lo-hi", or "lo+" for the open-ended range
      that the selector caps at 120. */
  lemma AgePresetNamesSpellBounds(range: string)
    requires range in AgePresetNames
    ensures var r := AgePreset(range).value;
      && r.lo >= 0 && r.hi >= 0
      && (r.hi == 120 ==> range == ShowNat(r.lo) + "+")
      && (r.hi != 120 ==> range == ShowNat(r.lo) + "-" + ShowNat(r.hi))
  {
    assert ShowNat(18) == "18" && ShowNat(30) == "30";
    assert ShowNat(31) == "31" && ShowNat(50) == "50";
    assert ShowNat(51) == "51" && ShowNat(70) == "70";
    assert ShowNat(71) == "71";
  }

  predicate InRange(age: int, r: AgeRange)
  {
    r.lo <= age <= r.hi
  }

  /** The presets tile the ages 18 to 120: each such age lies in exactly one preset, and no
      other age lies in any. */
  lemma AgePresetsPartition(age: int)
    ensures 18 <= age <= 120 ==>
      exists i :: 0 <= i < |AgePresetNames| && InRange(age, AgePreset(AgePresetNames[i]).value)
    ensures forall i, j :: 0 <= i < j < |AgePresetNames| ==>
      !(InRange(age, AgePreset(AgePresetNames[i]).value) && InRange(age, AgePreset(AgePresetNames[j]).value))
    ensures (age < 18 || age > 120) ==>
      forall i :: 0 <= i < |AgePresetNames| ==> !InRange(age, AgePreset(AgePresetNames[i]).value)
  {
    if 18 <= age <= 30 {
      assert InRange(age, AgePreset(AgePresetNames[0]).value);
    } else if 31 <= age <= 50 {
      assert InRange(age, AgePreset(AgePresetNames[1]).value);
    } else if 51 <= age <= 70 {
      assert InRange(age, AgePreset(AgePresetNames[2]).value);
    } else if 71 <= age <= 120 {
      assert InRange(age, AgePreset(AgePresetNames[3]).value);
    }
  }

  /** The age selector: sets the range from the preset, leaves the other fields. */
  function HandleAgeRangeChange(f: PatientFilters, range: string): (r: PatientFilters)
    ensures r.ageRange == AgePreset(range)
    ensures r.ageRange.Some? <==> range in AgePresetNames
    ensures r.riskLevel == f.riskLevel && r.conditions == f.conditions
  {
    f.(ageRange := AgePreset(range))
  }

  /** Some filter is set: exactly the records other than the cleared one. */
  function HasActiveFilters(f: PatientFilters): (b: bool)
    ensures b <==> f != NoFilters
  {
    |f.riskLevel| > 0 || f.ageRange != None || |f.conditions| > 0
  }

  /** The number on the filter button's badge. */
  function BadgeCount(f: PatientFilters): (n: nat)
    ensures n == 0 <==> f == NoFilters
    ensures n >= |f.riskLevel| + |f.conditions|
  {
    |f.riskLevel| + (if f.ageRange.Some? then 1 else 0) + |f.conditions|
  }

  /** The badge shows a positive number exactly when some filter is active. */
  lemma ActiveIffBadgePositive(f: PatientFilters)
    ensures HasActiveFilters(f) <==> BadgeCount(f) > 0
  {
  }

  /** "Clear all": no filter remains active. */
  function ClearFilters(f: PatientFilters): (r: PatientFilters)
    ensures !HasActiveFilters(r)
    ensures BadgeCount(r) == 0
  {
    NoFilters
  }
}

=== FILE: seqs.dfy ===
/** Order-preserving filtering over sequences (the behaviour of `Array.prototype.filter`)
    and the subsequence relation it satisfies. Every list view of the dashboard is built
    from this one operation. */
module Seqs {

  /** The elements of `s` for which `keep` holds, in their original order. */
  function Filter<T(!new)>(keep: T -> bool, s: seq<T>): (r: seq<T>)
    ensures |r| <= |s|
    ensures forall x :: x in r <==> x in s && keep(x)
    ensures multiset(r) <= multiset(s)
  {
    if |s| == 0 then []
    else
      assert s == [s[0]] + s[1..];
      if keep(s[0]) then [s[0]] + Filter(keep, s[1..]) else Filter(keep, s[1..])
  }

  /** No element occurs twice. */
  predicate Distinct<T(==)>(s: seq<T>)
  {
    forall j, k :: 0 <= j < k < |s| ==> s[j] != s[k]
  }

  /** `xs` is obtained from `ys` by deleting elements and keeping the rest in order. */
  predicate IsSubsequence<T(==)>(xs: seq<T>, ys: seq<T>)
    decreases |ys|
  {
    if |xs| == 0 then true
    else if |ys| == 0 then false
    else if xs[0] == ys[0] then IsSubsequence(xs[1..], ys[1..])
    else IsSubsequence(xs, ys[1..])
  }

  /** A filter result is a subsequence of its input: the relative order is kept. */
  lemma {:induction false} FilterIsSubsequence<T(!new)>(keep: T -> bool, s: seq<T>)
    ensures IsSubsequence(Filter(keep, s), s)
  {
    if |s| > 0 {
      FilterIsSubsequence(keep, s[1..]);
      var rest := Filter(keep, s[1..]);
      if !keep(s[0]) && |rest| > 0 {
        assert rest[0] in rest;
      }
    }
  }

  /** Filtering a concatenation filters each part. */
  lemma {:induction false} FilterAppend<T(!new)>(keep: T -> bool, a: seq<T>, b: seq<T>)
    ensures Filter(keep, a + b) == Filter(keep, a) + Filter(keep, b)
  {
    if |a| > 0 {
      assert (a + b)[1..] == a[1..] + b;
      FilterAppend(keep, a[1..], b);
    } else {
      assert a + b == b;
    }
  }

  /** A sequence whose `k`-th element (from one) is `name(k)` is the list of those names. */
  lemma NumberedFromOne<T>(s: seq<T>, name: nat -> T)
    requires forall k :: 0 <= k < |s| ==> s[k] == name(k + 1)
    ensures s == seq(|s|, k requires 0 <= k < |s| => name(k + 1))
  {
  }

  /** Filtering a list with a first element decides that element, then filters the rest. */
  lemma FilterCons<T(!new)>(keep: T -> bool, x: T, s: seq<T>)
    ensures Filter(keep, [x] + s) == (if keep(x) then [x] else []) + Filter(keep, s)
  {
    assert ([x] + s)[1..] == s;
  }

  /** When every element passes, the filter returns its input unchanged. */
  lemma {:induction false} FilterKeepsAll<T(!new)>(keep: T -> bool, s: seq<T>)
    requires forall x :: x in s ==> keep(x)
    ensures Filter(keep, s) == s
  {
    if |s| > 0 {
      assert s[0] in s;
      forall x | x in s[1..] ensures keep(x) {
        assert x in s;
      }
      FilterKeepsAll(keep, s[1..]);
      assert s == [s[0]] + s[1..];
    }
  }

  /** When no element passes, the filter returns nothing. */
  lemma {:induction false} FilterDropsAll<T(!new)>(keep: T -> bool, s: seq<T>)
    requires forall x :: x in s ==> !keep(x)
    ensures Filter(keep, s) == []
  {
    if |s| > 0 {
      assert s[0] in s;
      forall x | x in s[1..] ensures !keep(x) {
        assert x in s;
      }
      FilterDropsAll(keep, s[1..]);
    }
  }

  /** Filtering by a conjunction is filtering by one conjunct, then by the other. */
  lemma {:induction false} FilterConjunction<T(!new)>(both: T -> bool, first: T -> bool, second: T -> bool, s: seq<T>)
    requires forall x :: both(x) == (first(x) && second(x))
    ensures Filter(both, s) == Filter(second, Filter(first, s))
  {
    if |s| > 0 {
      FilterConjunction(both, first, second, s[1..]);
    }
  }

  /** Filtering keeps every occurrence of a kept value and none of a dropped one. */
  lemma {:induction false} FilterCount<T(!new)>(keep: T -> bool, s: seq<T>)
    ensures forall x :: multiset(Filter(keep, s))[x] == if keep(x) then multiset(s)[x] else 0
  {
    if |s| > 0 {
      FilterCount(keep, s[1..]);
      assert s == [s[0]] + s[1..];
    }
  }

  /** A predicate and its negation split a sequence: the two filters together hold every
      element exactly as often as the input does. */
  lemma FilterPartition<T(!new)>(keep: T -> bool, drop: T -> bool, s: seq<T>)
    requires forall x :: drop(x) == !keep(x)
    ensures multiset(Filter(keep, s)) + multiset(Filter(drop, s)) == multiset(s)
    ensures |Filter(keep, s)| + |Filter(drop, s)| == |s|
  {
    FilterCount(keep, s);
    FilterCount(drop, s);
    var kept, dropped := Filter(keep, s), Filter(drop, s);
    assert multiset(kept) + multiset(dropped) == multiset(s);
    assert |multiset(kept) + multiset(dropped)| == |kept| + |dropped|;
  }

  /** Deleting elements cannot create a repetition. */
  lemma {:induction false} SubsequenceKeepsDistinct<T(!new)>(xs: seq<T>, ys: seq<T>)
    requires IsSubsequence(xs, ys)
    ensures Distinct(ys) ==> Distinct(xs)
    decreases |ys|
  {
    if |xs| > 0 && |ys| > 0 && Distinct(ys) {
      if xs[0] == ys[0] {
        SubsequenceKeepsDistinct(xs[1..], ys[1..]);
        SubsequenceMembers(xs[1..], ys[1..]);
        forall k | 0 < k < |xs| ensures xs[0] != xs[k] {
          assert xs[k] == xs[1..][k - 1];
          assert xs[k] in ys[1..];
        }
      } else {
        SubsequenceKeepsDistinct(xs, ys[1..]);
      }
    }
  }

  /** Every element of a subsequence occurs in the sequence. */
  lemma {:induction false} SubsequenceMembers<T(!new)>(xs: seq<T>, ys: seq<T>)
    requires IsSubsequence(xs, ys)
    ensures forall x :: x in xs ==> x in ys
    decreases |ys|
  {
    if |xs| > 0 && |ys| > 0 {
      if xs[0] == ys[0] {
        SubsequenceMembers(xs[1..], ys[1..]);
        assert xs == [xs[0]] + xs[1..];
      } else {
        SubsequenceMembers(xs, ys[1..]);
      }
    }
  }

  /** A sequence is its prefix before `i`, its element at `i`, and the rest. */
  lemma SplitAt<T>(t: seq<T>, i: nat)
    requires i < |t|
    ensures t == t[..i] + ([t[i]] + t[i + 1..])
  {
  }

  /** Removing the element at `i` removes one occurrence of it from the multiset. */
  lemma RemoveAt<T>(t: seq<T>, i: nat)
    requires i < |t|
    ensures multiset(t[..i] + t[i + 1..]) == multiset(t) - multiset{t[i]}
  {
    assert t == t[..i] + [t[i]] + t[i + 1..];
  }

  /** The kept positions below `n + 1` are those below `n`, plus `n` when its element is kept. */
  lemma KeptPositionsStep<T(!new)>(keep: T -> bool, s: seq<T>, n: nat)
    requires n < |s|
    ensures (set k | 0 <= k < n + 1 && keep(s[k]))
         == (set k | 0 <= k < n && keep(s[k])) + (if keep(s[n]) then {n} else {})
  {
  }

  /** Extending a prefix by one element adds one to the filter length exactly when that
      element is kept. */
  lemma FilterPrefixStep<T(!new)>(keep: T -> bool, s: seq<T>, n: nat)
    requires n < |s|
    ensures |Filter(keep, s[..n + 1])| == |Filter(keep, s[..n])| + (if keep(s[n]) then 1 else 0)
  {
    assert s[..n + 1] == s[..n] + [s[n]];
    FilterAppend(keep, s[..n], [s[n]]);
    assert [s[n]][1..] == [];
  }

  /** Filtering a prefix of length `n` keeps as many elements as there are kept positions
      below `n`. */
  lemma {:induction false} FilterPrefixCount<T(!new)>(keep: T -> bool, s: seq<T>, n: nat)
    requires n <= |s|
    ensures |Filter(keep, s[..n])| == |set k | 0 <= k < n && keep(s[k])|
    decreases n
  {
    if n > 0 {
      FilterPrefixCount(keep, s, n - 1);
      FilterPrefixStep(keep, s, n - 1);
      KeptPositionsStep(keep, s, n - 1);
      assert n - 1 !in (set k | 0 <= k < n - 1 && keep(s[k]));
    }
  }

  /** The length of a filter result is the number of positions whose element is kept. */
  lemma FilterLengthIsCount<T(!new)>(keep: T -> bool, s: seq<T>)
    ensures |Filter(keep, s)| == |set k | 0 <= k < |s| && keep(s[k])|
  {
    FilterPrefixCount(keep, s, |s|);
    assert s[..|s|] == s;
  }

  /** The same count, for any set that holds exactly the positions of the kept elements. */
  lemma FilterLengthIsPositionCount<T(!new)>(keep: T -> bool, s: seq<T>, positions: set<int>)
    requires forall k :: k in positions <==> 0 <= k < |s| && keep(s[k])
    ensures |Filter(keep, s)| == |positions|
  {
    FilterLengthIsCount(keep, s);
    assert positions == set k | 0 <= k < |s| && keep(s[k]);
  }
}

=== FILE: text.dfy ===
/** String helpers the dashboard relies on: ASCII case folding (`toLowerCase`), substring
    search (`String.prototype.includes`), and decimal rendering of numbers in template
    literals. */
module Text {

  predicate IsUpper(c: char) { 'A' <= c <= 'Z' }

  predicate IsDigit(c: char) { '0' <= c <= '9' }

  /** `toLowerCase` on one character, restricted to ASCII letters. */
  function LowerChar(c: char): (r: char)
    ensures !IsUpper(r)
    ensures IsUpper(c) ==> r as int == c as int + 32
    ensures !IsUpper(c) ==> r == c
  {
    if IsUpper(c) then (c as int + 32) as char else c
  }

  /** `toLowerCase` on a string: same length, every character folded. */
  function Lower(s: string): (r: string)
    ensures |r| == |s|
    ensures forall i :: 0 <= i < |s| ==> r[i] == LowerChar(s[i])
  {
    seq(|s|, i requires 0 <= i < |s| => LowerChar(s[i]))
  }

  /** Folding twice is folding once. */
  lemma LowerIdempotent(s: string)
    ensures Lower(Lower(s)) == Lower(s)
  {
  }

  /** `needle` occurs in `hay` starting at position `i`. */
  ghost predicate OccursAt(needle: string, hay: string, i: int)
  {
    0 <= i && i + |needle| <= |hay| && hay[i..i + |needle|] == needle
  }

  /** `hay.includes(needle)`: tries each start position from the left. */
  function Includes(hay: string, needle: string): bool
    decreases |hay|
  {
    if |needle| > |hay| then false
    else if hay[..|needle|] == needle then true
    else Includes(hay[1..], needle)
  }

  /** The search agrees with the positional definition of a substring, in both directions. */
  lemma {:induction false} IncludesIffOccurs(hay: string, needle: string)
    ensures Includes(hay, needle) <==> exists i :: OccursAt(needle, hay, i)
    decreases |hay|
  {
    if |needle| > |hay| {
    } else if hay[..|needle|] == needle {
      assert OccursAt(needle, hay, 0);
    } else {
      IncludesIffOccurs(hay[1..], needle);
      if Includes(hay[1..], needle) {
        var j :| OccursAt(needle, hay[1..], j);
        assert hay[1..][j..j + |needle|] == hay[j + 1..j + 1 + |needle|];
        assert OccursAt(needle, hay, j + 1);
      } else {
        forall i | OccursAt(needle, hay, i) ensures false {
          assert i != 0;
          assert hay[1..][i - 1..i - 1 + |needle|] == hay[i..i + |needle|];
          assert OccursAt(needle, hay[1..], i - 1);
        }
      }
    }
  }

  function DigitChar(d: nat): (c: char)
    requires d < 10
    ensures IsDigit(c)
  {
    ('0' as int + d) as char
  }

  function DigitValue(c: char): (d: nat)
    requires IsDigit(c)
    ensures d < 10 && DigitChar(d) == c
  {
    c as int - '0' as int
  }

  /** The decimal rendering of a natural number, as a template literal prints it. */
  function ShowNat(n: nat): (s: string)
    ensures |s| >= 1
    ensures forall i :: 0 <= i < |s| ==> IsDigit(s[i])
    decreases n
  {
    if n < 10 then [DigitChar(n)] else ShowNat(n / 10) + [DigitChar(n % 10)]
  }

  /** The value of a string of decimal digits. */
  function ParseNat(s: string): nat
    requires forall i :: 0 <= i < |s| ==> IsDigit(s[i])
    decreases |s|
  {
    if |s| == 0 then 0 else ParseNat(s[..|s| - 1]) * 10 + DigitValue(s[|s| - 1])
  }

  /** Rendering then reading back a number gives the number. */
  lemma {:induction false} ParseShowNat(n: nat)
    ensures ParseNat(ShowNat(n)) == n
    decreases n
  {
    if n >= 10 {
      ParseShowNat(n / 10);
      var s := ShowNat(n);
      assert s[..|s| - 1] == ShowNat(n / 10);
    }
  }

  /** Different numbers render differently. */
  lemma ShowNatInjective(m: nat, n: nat)
    ensures ShowNat(m) == ShowNat(n) ==> m == n
  {
    ParseShowNat(m);
    ParseShowNat(n);
  }

  /** The decimal rendering of an integer, with a leading '-' when negative. */
  function ShowInt(n: int): (s: string)
    ensures |s| >= 1
    ensures n < 0 <==> s[0] == '-'
  {
    if n < 0 then "-" + ShowNat(-n) else ShowNat(n)
  }
}

=== FILE: wrappers.dfy ===
/** The optional value used wherever the dashboard has `T | null`. */
module Wrappers {

  datatype Option<+T> = None | Some(value: T)
}
